=== FILE: README.md ===
# Token budgeting in the LLM_Mechanics demo projects

A Dafny model of the token-budgeting logic shared by the `LLM_Mechanics`
demo projects. Before (or instead of) calling a hosted language model,
these projects:

- count prompt and completion tokens;
- decide whether a request fits the model's context window;
- price the request in USD per million tokens;
- split a long transcript into token windows;
- fall back to a truncated "summary" when a prompt is too long;
- keep per-user state: a result cache, a running cost per user, and a
  conversation log.

The tokenizer is abstract (`Tokenizers.Tokenizer`): two arbitrary total
functions, `encode` from text to token ids and `decode` back. `Count` is by
definition the length of the encoding, as `count_tokens` is in every
project (`Transcript_CE/utils.py:11-12`, `Minimal_Token_Count/utils.py:7-8`).
No property of the tokenizer is assumed, not even that `decode` undoes
`encode`. Lemmas that need a fact about a concrete text state it as a
precondition.

The modules follow the projects:

| module | file | models |
|---|---|---|
| `Results` | results.dfy | `Option` and `Result`, used for defaults and raised errors |
| `Tokenizers` | tokenizers.dfy | `TokenizerWrapper` / `Tokenizer` as an abstract capability |
| `TokenEconomics` | token_economics.dfy | `estimate_cost` and `fits_context` (Minimal_Token_Count) |
| `Chunking` | token_chunks.dfy | `split_into_token_chunks` (Transcript_CE) |
| `TranscriptCost` | transcript_cost.dfy | `estimate_summarization_cost` (Transcript_CE) |
| `ContextSummary` | context_summary.dfy | `token_summary` (Context_Limit) |
| `ContextFallback` | context_fallback.dfy | `prepare_prompt_or_fallback` (Context_Limit) |
| `ServiceState` | service_state.dfy | the cache key, the `USER_BUDGET` running cost and the cache-in-front request logic, shared by both services |
| `EstimateService` | estimate_service.dfy | `process_estimate` of Prod-Api-Services, as written and with the cache keyed by the request |
| `ModelService` | model_service.dfy | `get_model_response` and `process_estimate` of Prod-real-api-metrics, as written and with the cache keyed by the request |
| `Conversation` | conversation.dfy | `USER_MEMORY` in the `/estimate` and `/clear` endpoints of Prod-real-api-metrics |

Modelling choices:

- Raised `ValueError`s become the `Err` side of a `Result`:
  - `WindowTooSmall` for the transcript planner;
  - `TooLargeAfterSummary` for the fallback;
  - `ZeroStep` for Python's `range` with a zero step.
- The global dictionaries and the Redis cache are explicit state values.
  Each request is a pure function from the old state to a result and the
  new state.
- The hosted model is a parameter `Model` from prompt and completion budget
  to either a reply or a raised exception.
- Both services key their cache, as written, by the string
  `f"{user_id}:{prompt}:{max_completion_tokens}"` (`LegacyCacheKey`). Each
  service also has a corrected variant, `ProcessEstimateCorrected`, that
  keys the cache by the request triple (`RequestKey`). The request logic
  itself (`ServiceState.Serve`) is written once, over any key and value
  type; each service supplies what a miss computes.
- Costs are exact `real`s.
- Python's `int(x * 0.8)` is four fifths of `x`, truncated toward zero.
- Python slice and `range` semantics are modelled for every integer
  argument. A negative chunk size gives no chunks. A negative cap `-k` in
  `token_summary` keeps all but the last `k` tokens (none when `k` is at
  least the token count).

Behaviour of the code worth noting:

- The transcript planner's overhead is the instructions' token count plus
  50 framing tokens.
- The usable window is truncated toward zero, as Python's `int` does.
  Truncating and flooring differ only for negative windows, which are
  refused either way.
- A cache hit is not free of effect. It skips the model call and the charge
  to the caller's running cost, and it returns the stored result, including
  the `model_response` of the earlier call. A real model asked again may
  answer differently; the model here is one fixed function, so a stored
  reply is what a new call would return.
- The limits are the constants of each project:
  - 4000 and 512 in Transcript_CE and Context_Limit;
  - 8000 by default in Minimal_Token_Count;
  - 16000 in both services.
- The estimate-only service reads its limit and rates from the environment
  with those defaults. This is `EstimateService.Config` and
  `DefaultConfig`.
- The `/estimate` endpoint of Prod-real-api-metrics takes a plain `dict`.
  The prompt defaults to `""` and the budget to 256. The `EstimateRequest`
  default of 1024 is not used.

## Model

| member | source | states |
|---|---|---|
| TokenEconomics.EstimateCost | LLM_Mechanics/Projects/Minimal_Token_Count/utils.py:17-20 | non-negative token counts at non-negative rates never cost a negative amount |
| Tokenizers.Count | LLM_Mechanics/Projects/Transcript_CE/utils.py:11-12 | a text counts zero tokens exactly when it encodes to no tokens |
| TokenEconomics.EstimateCostScaled | LLM_Mechanics/Projects/Minimal_Token_Count/utils.py:17-20 | a million times the cost is prompt tokens times the prompt rate plus completion tokens times the completion rate |
| TokenEconomics.PerMillionMonotone | LLM_Mechanics/Projects/Minimal_Token_Count/utils.py:18-19 | pricing per million tokens is monotone in the tokens at a non-negative rate, and zero tokens cost nothing |
| TokenEconomics.EstimateCostZero | LLM_Mechanics/Projects/Minimal_Token_Count/utils.py:17-20 | no prompt and no completion tokens cost zero, whatever the rates |
| TokenEconomics.EstimateCostMonotone | LLM_Mechanics/Projects/Minimal_Token_Count/utils.py:17-20 | with non-negative rates, more tokens of either kind never cost less |
| TokenEconomics.EstimateCostMonotoneInCompletion | LLM_Mechanics/Projects/Minimal_Token_Count/utils.py:19-20 | with a non-negative completion rate, a larger completion never costs less, for any prompt and prompt rate |
| TokenEconomics.EstimateCostStrictInPrompt | LLM_Mechanics/Projects/Minimal_Token_Count/utils.py:18-20 | with a positive prompt rate, more prompt tokens cost strictly more |
| TokenEconomics.EstimateCostAdditive | LLM_Mechanics/Projects/Minimal_Token_Count/utils.py:17-20 | the cost is linear: the cost of two requests' summed counts is the sum of their costs |
| TokenEconomics.DefaultRateExamples | LLM_Mechanics/Projects/Minimal_Token_Count/test_main.py:7-10 | at the default rates 1.5 and 2.0 a million tokens of each kind cost 3.5 USD, and 2000 prompt tokens cost more than 1000 |
| TokenEconomics.FitsContextBoundary | LLM_Mechanics/Projects/Minimal_Token_Count/utils.py:23-24 | the limit is inclusive (exactly `limit - completion` prompt tokens fit, one more does not), and a smaller prompt or a smaller completion budget keeps a fitting request fitting |
| TokenEconomics.FitsContext | LLM_Mechanics/Projects/Minimal_Token_Count/utils.py:23-24 | a request fits exactly when its completion budget is at most the limit minus its prompt tokens |
| TokenEconomics.DefaultLimitExamples | LLM_Mechanics/Projects/Minimal_Token_Count/test_main.py:12-14 | with the default limit of 8000, (1000, 1000) fits and (8000, 1) does not |
| Chunking.Windows | LLM_Mechanics/Projects/Transcript_CE/utils.py:23-24 | the windows number ceil(T/n), concatenate back to exactly the tokens in order, all hold n tokens except the last, and every window has between 1 and n tokens |
| Chunking.WindowsAt | LLM_Mechanics/Projects/Transcript_CE/utils.py:23-24 | every k with k*n < T indexes a window, and window k is the slice from k*n to min(k*n+n, T) |
| Chunking.WindowsAtAll | LLM_Mechanics/Projects/Transcript_CE/utils.py:23-24 | every window is the slice from k*n to min(k*n+n, T) |
| Chunking.TokenChunks | LLM_Mechanics/Projects/Transcript_CE/utils.py:20-25 | a zero size raises; a negative size gives no chunks; a positive size n gives ceil(T/n) chunks (none for an empty encoding), chunk k being the decoded slice from k*n to min(k*n+n, T) |
| Chunking.SplitIntoTokenChunks | LLM_Mechanics/Projects/Transcript_CE/utils.py:20-25 | the loop over `range(0, T, n)` builds exactly the chunk list above, or raises for a zero step |
| TranscriptCost.ApplySafetyMargin | LLM_Mechanics/Projects/Transcript_CE/main.py:12 | `int(x * 0.8)` is four fifths of x truncated toward zero: floor(4x/5) for x >= 0 and ceil(4x/5) <= 0 for x < 0 |
| TranscriptCost.AvailableTokens | LLM_Mechanics/Projects/Transcript_CE/main.py:11-13 | the window left for transcript tokens is positive exactly when the overhead is at most 3486 tokens |
| TranscriptCost.EstimateSummarizationCost | LLM_Mechanics/Projects/Transcript_CE/main.py:9-29 | refuses exactly when the instructions take 3437 tokens or more (the window is then <= 0); otherwise the window is floor(4/5 (4000 - overhead - 512)) with overhead = count + 50, the chunk count is ceil(T / window), prompt tokens are (window + overhead) per chunk, completion tokens 512 per chunk, and the cost prices those totals at 1.0 and 1.5 |
| TranscriptCost.ChunkRequestFitsContext | LLM_Mechanics/Projects/Transcript_CE/main.py:11-12 | every chunk request (a full window, the overhead and 512 completion tokens) fits the 4000-token window |
| TranscriptCost.WorstCaseCoversTranscript | LLM_Mechanics/Projects/Transcript_CE/main.py:16-21 | the charged prompt tokens cover every transcript token plus the overhead of every chunk, with equality exactly when the last chunk is full; the cost is non-negative; a non-empty encoding needs at least one chunk |
| TranscriptCost.WorstCaseArithmetic | LLM_Mechanics/Projects/Transcript_CE/main.py:18 | for any window, overhead and token total, charging a full window per chunk over-counts exactly by the gap in the last chunk |
| TranscriptCost.DefaultInstructionsPlan | LLM_Mechanics/Projects/Transcript_CE/test_main.py:3-7 | with the default instructions, a transcript encoding to at least one token is planned in at least one chunk at a non-negative cost |
| ContextSummary.SlicePrefix | LLM_Mechanics/Projects/Context_Limit/utils.py:20 | `tokens[:m]` is a prefix: m tokens when 0 <= m <= T, all of them when m > T, all but the last -m when m < 0 |
| ContextSummary.TokenSummary | LLM_Mechanics/Projects/Context_Limit/utils.py:16-20 | text within the cap comes back unchanged; longer text becomes the decoded leading tokens followed by the truncation marker, which it always ends with |
| ContextSummary.TruncationKeepsLeadingTokens | LLM_Mechanics/Projects/Context_Limit/utils.py:20 | a truncated summary decodes an order-preserving prefix of exactly `max_tokens` tokens of the text |
| ContextSummary.DefaultCapSummary | LLM_Mechanics/Projects/Context_Limit/utils.py:16-20 | with the default cap of 200 tokens, text of at most 200 tokens is kept and longer text keeps its first 200 tokens and the marker |
| ContextFallback.PreparePromptOrFallback | LLM_Mechanics/Projects/Context_Limit/main.py:6-22 | direct exactly when `instructions + "\n\nUser:\n" + prompt` fits with 512 completion tokens in 4000; otherwise the summarized prompt; an error exactly when neither fits; any returned prompt starts with the instructions, fits, and reports its own token count |
| ContextFallback.DirectPrompt | LLM_Mechanics/Projects/Context_Limit/main.py:8 | the direct prompt is the instructions, then "\n\nUser:\n", then the user's prompt, and nothing else |
| ContextFallback.FallbackPrompt | LLM_Mechanics/Projects/Context_Limit/main.py:15-16 | the fallback prompt is the instructions, then "\n\nUser (summarized):\n", then the user's prompt when it has at most 200 tokens and otherwise its summary, which ends with the truncation marker |
| ContextFallback.ShortPromptIsDirect | LLM_Mechanics/Projects/Context_Limit/test_main.py:3-7 | "Hi" after "You are a helpful assistant." is sent directly, under any tokenizer spending at most one token per character of that prompt |
| ContextFallback.SummarizedPromptContent | LLM_Mechanics/Projects/Context_Limit/main.py:15-16 | a summarized prompt carries the whole user prompt when it has at most 200 tokens, and otherwise its first 200 tokens and the marker |
| ServiceState.Charge | LLM_Mechanics/Projects/Prod-Api-Services/app/services.py:51 | the running cost of the charged user grows by exactly the cost, starting from 0 for a new user; every other user's running cost and the set of other users are unchanged |
| ServiceState.ChargesCompose | LLM_Mechanics/Projects/Prod-Api-Services/app/services.py:51 | two charges to one user add up to one charge of the sum; charges to different users commute |
| ServiceState.RequestKeyInjective | LLM_Mechanics/Projects/Prod-Api-Services/app/services.py:38 | the corrected cache key identifies the user, the prompt and the completion budget: equal keys mean equal requests |
| ServiceState.NatDigits | LLM_Mechanics/Projects/Prod-Api-Services/app/services.py:38 | the decimal rendering of a natural number is a non-empty run of digit characters, most significant first, that denotes the number, with no leading zero except for 0 itself |
| ServiceState.DecimalString | LLM_Mechanics/Projects/Prod-Api-Services/app/services.py:38 | the rendering of an integer in an f-string has no ':', starts with '-' exactly for negative numbers, and its digits (after the sign) denote the magnitude with no leading zero |
| ServiceState.DecimalStringInjective | LLM_Mechanics/Projects/Prod-Api-Services/app/services.py:38 | different integers render differently |
| ServiceState.LegacyCacheKey | LLM_Mechanics/Projects/Prod-Api-Services/app/services.py:38 | the key `f"{user_id}:{prompt}:{max_completion_tokens}"` is the user id, a colon, the prompt, a colon and the rendered budget, at the positions those lengths give, and nothing else |
| ServiceState.LegacyCacheKeyCollides | LLM_Mechanics/Projects/Prod-Api-Services/app/services.py:38 | two different users' requests can share one key: "alice:x" asking "y" and "alice" asking "x:y", both with budget 512, both build "alice:x:y:512", while their request keys differ |
| ServiceState.LegacyCacheKeyInjectiveWithoutColon | LLM_Mechanics/Projects/Prod-Api-Services/app/services.py:38 | among user ids without ':', the legacy key does identify the request |
| ServiceState.Serve | LLM_Mechanics/Projects/Prod-Api-Services/app/services.py:38-63 | a cached key returns the cached value and changes nothing; a miss returns the computed value, adds its cost to the caller's running cost (adding no other user) and caches it under the key, leaving every other entry as it was |
| ServiceState.ServeKeepsAnswers | LLM_Mechanics/Projects/Prod-Api-Services/app/services.py:41-63 | a request-keyed cache whose entries are what their requests compute answers every request with what it computes, and keeps that property |
| ServiceState.ServeAgreesWithoutColon | LLM_Mechanics/Projects/Prod-Api-Services/app/services.py:38-63 | for colon-free user ids, serving under the written key and under the request key give the same result and mirrored states |
| EstimateService.WorstCaseCost | LLM_Mechanics/Projects/Prod-Api-Services/app/services.py:25-29 | the worst-case cost is the price of the prompt and the full completion budget, and at a non-negative completion rate no completion of at most that budget costs more |
| EstimateService.EstimateOf | LLM_Mechanics/Projects/Prod-Api-Services/app/services.py:46-48 | a fresh estimate has the prompt's token count, fits exactly when count + budget <= limit, and is priced at the full budget |
| EstimateService.ProcessEstimate | LLM_Mechanics/Projects/Prod-Api-Services/app/services.py:31-64 | a request whose written key `user_id:prompt:budget` is cached returns the cached result and changes nothing; otherwise the fresh estimate is returned, charged to the caller alone, and cached under the written key with no other entry changed |
| EstimateService.ProcessEstimateCorrected | LLM_Mechanics/Projects/Prod-Api-Services/app/services.py:31-64 | the same request logic with the cache keyed by the (user, prompt, budget) triple |
| EstimateService.DefaultRequestEstimate | LLM_Mechanics/Projects/Prod-Api-Services/app/config.py:4-7 | with the default limit 16000, rates 1.0 and 2.0 and the request body's default budget 512, a fresh estimate fits exactly when the prompt has at most 15488 tokens, and a million times its price is the prompt's tokens plus 1024 |
| EstimateService.CollidingUserIsServedCachedResult | LLM_Mechanics/Projects/Prod-Api-Services/app/services.py:38-43 | after user "alice:x" asks "y", user "alice" asking "x:y" gets the first user's result (the token count of "y") and changes nothing |
| EstimateService.CorrectedServiceAnswersTheRequest | LLM_Mechanics/Projects/Prod-Api-Services/app/services.py:38-63 | the corrected service answers every request with the fresh estimate of that request, hit or miss, and its cache keeps holding only such estimates |
| EstimateService.WrittenKeyAgreesWithoutColon | LLM_Mechanics/Projects/Prod-Api-Services/app/services.py:38-63 | while no user id holds a colon, the service as written returns what the corrected one does and their states keep mirroring each other |
| EstimateService.RepeatedRequestIsCached | LLM_Mechanics/Projects/Prod-Api-Services/app/services.py:41-63 | repeating a request returns the first result and neither charges nor changes anything |
| EstimateService.BudgetsOnlyGrowForCaller | LLM_Mechanics/Projects/Prod-Api-Services/app/services.py:51 | with non-negative rates and budget no running cost ever falls, and only the caller's can rise |
| ModelService.ModelResponse | LLM_Mechanics/Projects/Prod-real-api-metrics/api/app/services.py:34-43 | a completed call yields its content; a raising call yields "[ERROR CALLING MODEL]: " followed by the message, never an error |
| ModelService.ReplyOf | LLM_Mechanics/Projects/Prod-real-api-metrics/api/app/services.py:51-55 | a fresh reply carries the model's text (or error text), the prompt's and that text's token counts, fits exactly when their sum is at most 16000, and is priced on those counts |
| ModelService.ProcessEstimate | LLM_Mechanics/Projects/Prod-real-api-metrics/api/app/services.py:45-67 | a request whose written key is cached returns the cached reply and changes nothing; otherwise the model is called and the fresh reply is charged to the caller alone and cached under the written key with no other entry changed |
| ModelService.ProcessEstimateCorrected | LLM_Mechanics/Projects/Prod-real-api-metrics/api/app/services.py:45-67 | the same request logic with the cache keyed by the (user, prompt, budget) triple |
| ModelService.CollidingUserGetsOtherUsersReply | LLM_Mechanics/Projects/Prod-real-api-metrics/api/app/services.py:46-49 | after user "alice:x" asks "y", user "alice" asking "x:y" gets the model's reply to "y" and changes nothing |
| ModelService.CorrectedServiceAnswersTheRequest | LLM_Mechanics/Projects/Prod-real-api-metrics/api/app/services.py:46-66 | with the model a fixed function of prompt and budget, the corrected service answers every request with the reply to that same (user, prompt, budget), hit or miss, and its cache keeps holding only such replies |
| ModelService.WrittenKeyAgreesWithoutColon | LLM_Mechanics/Projects/Prod-real-api-metrics/api/app/services.py:46-66 | while no user id holds a colon, the service as written returns the reply the corrected one does and their states keep mirroring each other |
| ModelService.CacheHitIgnoresModel | LLM_Mechanics/Projects/Prod-real-api-metrics/api/app/services.py:46-49 | on a cache hit the outcome does not depend on the model: it is not called |
| ModelService.RepeatedRequestIsCached | LLM_Mechanics/Projects/Prod-real-api-metrics/api/app/services.py:46-66 | repeating a request returns the first reply and changes nothing more |
| ModelService.FailedCallIsCharged | LLM_Mechanics/Projects/Prod-real-api-metrics/api/app/services.py:42-56 | a raising model call still succeeds: the error text is the reply, and it is counted, priced and charged to the caller |
| Conversation.UserId | LLM_Mechanics/Projects/Prod-real-api-metrics/api/app/main.py:46 | a missing `x-user-id` header means the user "anonymous" |
| Conversation.JoinAppend | LLM_Mechanics/Projects/Prod-real-api-metrics/api/app/main.py:53 | joining one more line adds the separator and the line at the end |
| Conversation.MemoryPrefix | LLM_Mechanics/Projects/Prod-real-api-metrics/api/app/main.py:51-53 | a user without a log adds nothing; a user with one adds the log joined by newlines and one final newline |
| Conversation.FullPrompt | LLM_Mechanics/Projects/Prod-real-api-metrics/api/app/main.py:51-55 | a user with a log sends the log joined by newlines, a newline and the prompt; a user without one sends the prompt alone |
| Conversation.FlattenNewlines | LLM_Mechanics/Projects/Prod-real-api-metrics/api/app/main.py:82 | the response has the reply's length, a space where the reply has a newline, and every other character in place |
| Conversation.Estimate | LLM_Mechanics/Projects/Prod-real-api-metrics/api/app/main.py:44-82 | the augmented prompt goes to the service with the default budget 256; the user's log becomes the old log plus "User: " + raw prompt and "Bot: " + reply, in that order; other logs are unchanged; the reply is returned on one line |
| Conversation.Remember | LLM_Mechanics/Projects/Prod-real-api-metrics/api/app/main.py:66-69 | the caller's log, created empty when missing, gains the new lines at its end; every other log is unchanged and no other user is added |
| Conversation.ClearMemory | LLM_Mechanics/Projects/Prod-real-api-metrics/api/app/main.py:85-88 | only the caller's log becomes empty, and the caller keeps a (now empty) log |
| Conversation.ClearedPromptStartsWithNewline | LLM_Mechanics/Projects/Prod-real-api-metrics/api/app/main.py:51-55 | after a clear the next prompt is sent behind a lone newline |
| Conversation.MemoryPrefixAfterEstimate | LLM_Mechanics/Projects/Prod-real-api-metrics/api/app/main.py:51-69 | each exchange grows the remembered prefix by exactly its two lines, each ended by a newline; after a clear the lone newline is replaced by them |
| Conversation.PrefixOfExtendedLog | LLM_Mechanics/Projects/Prod-real-api-metrics/api/app/main.py:51-69 | a log that gains two lines grows its prefix by those lines, each ended by a newline; an empty log's lone newline is replaced by them |

## Left out

- Tokenizer internals (tiktoken's byte-pair encoding): `encode` and `decode` are arbitrary functions. No round trip or additivity over concatenation is assumed, because byte-pair encodings guarantee neither.
- TokenEconomics.EstimateCost: the cost is exact, not rounded to six decimal places by `round(..., 6)`, and not computed in binary floating point.
- TranscriptCost.EstimateSummarizationCost: the planner's total is exact, not rounded by `round(total_cost, 6)` (Transcript_CE/main.py:28).
- EstimateService.WorstCaseCost: the worst-case price is exact, not rounded to six decimal places (Prod-Api-Services/app/services.py:29).
- ModelService.ProcessEstimate: the reply's cost is exact, not rounded to six decimal places (Prod-real-api-metrics/api/app/services.py:23-27).
- ServiceState.Charge: running costs add exact costs; in the code they accumulate the rounded floats.
- TranscriptCost.ApplySafetyMargin: the margin is exactly 4/5, not the double nearest 0.8. The two truncate to the same integer for every window the planner can meet, since a non-integral 4x/5 is at least 1/5 away from an integer.
- The "long " * 2000 case of the fallback test: whether the summarized prompt fits depends on the concrete tokenizer, which is abstract here.
- The Redis cache's 300-second expiry and JSON round trip: the cache is a map whose entries never expire.
- The request duration (`duration_ms`) and every clock read.
- Conversation.EstimateBody: the request body's prompt and budget are either absent or well typed. A JSON `null` or non-string prompt, which makes the prompt concatenation raise a `TypeError` and the endpoint answer 500 (Prod-real-api-metrics/api/app/main.py:47, 55), and a non-integer budget (main.py:48), are not modelled.
- HTTP routing, the API-key and request-context middleware, static files, Prometheus metrics and logging.
- ModelService.CorrectedServiceAnswersTheRequest: the model is one fixed function of prompt and budget, so a cached reply equals a fresh one only in the model. A real model, sampled on each call, may answer the same request differently; the lemma then says only that every reply returned was produced for that same (user, prompt, budget).
- The OpenRouter client: the model is an abstract function. A reply whose content is `None` is not modelled.
- Concurrent requests racing on the global dictionaries: requests are sequential.
- The Generation_Controls package, which only forwards sampling parameters to the model client.
- `load_transcript`, the printing `main()` functions and the example scripts.

## Findings

| source | as written | input that shows it | evidently intended | confidence | as-written member | corrected member |
|---|---|---|---|---|---|---|
| LLM_Mechanics/Projects/Prod-Api-Services/app/services.py:38 | the cache key is `f"{user_id}:{prompt}:{max_completion_tokens}"`, and the user id comes unchecked from the `x-user-id` header (the same key is built at Prod-real-api-metrics/api/app/services.py:46) | user "alice:x" with prompt "y" and user "alice" with prompt "x:y", both with budget 512, get the key "alice:x:y:512": the second request is answered with the first user's cached result and is not charged | a key that identifies the user, the prompt and the budget separately | medium, not executed | EstimateService.CollidingUserIsServedCachedResult | EstimateService.CorrectedServiceAnswersTheRequest |

=== FILE: context_fallback.dfy ===
/**
 * `prepare_prompt_or_fallback`: send the user's prompt as it is when it
 * fits beside the completion budget, otherwise send its truncated summary,
 * and refuse when even that does not fit.
 */
module ContextFallback {
  import opened Results
  import opened Tokenizers
  import opened TokenEconomics
  import opened ContextSummary

  const ModelContextLimit: int := 4000
  const MaxCompletionTokens: int := 512

  const DirectSeparator: string := "\n\nUser:\n"
  const SummarizedSeparator: string := "\n\nUser (summarized):\n"

  datatype Mode = Direct | Summarized

  /** The prompt to send, how it was obtained, and its token count. */
  datatype PreparedPrompt = PreparedPrompt(mode: Mode, prompt: string, promptTokens: nat)

  /** Raised as `ValueError`: too large even after summarization. */
  datatype FallbackError = TooLargeAfterSummary

  /** The prompt sent as it is: the instructions, the separator, then the user's prompt. */
  function DirectPrompt(userPrompt: string, instructions: string): (p: string)
    ensures |p| == |instructions| + |DirectSeparator| + |userPrompt|
    ensures p[..|instructions|] == instructions
    ensures p[|instructions|..|instructions| + |DirectSeparator|] == DirectSeparator
    ensures p[|instructions| + |DirectSeparator|..] == userPrompt
  {
    instructions + DirectSeparator + userPrompt
  }

  /**
   * The prompt sent instead: the instructions, the summarized separator,
   * then the user's prompt itself when it has at most 200 tokens and its
   * truncated summary otherwise.
   */
  function FallbackPrompt(tok: Tokenizer, userPrompt: string, instructions: string): (p: string)
    ensures |instructions| + |SummarizedSeparator| <= |p|
    ensures p[..|instructions|] == instructions
    ensures p[|instructions|..|instructions| + |SummarizedSeparator|] == SummarizedSeparator
    ensures Count(tok, userPrompt) <= DefaultMaxTokens ==>
              p[|instructions| + |SummarizedSeparator|..] == userPrompt
    ensures Count(tok, userPrompt) > DefaultMaxTokens ==>
              p[|instructions| + |SummarizedSeparator|..] == TokenSummary(tok, userPrompt)
              && |TruncationMarker| <= |p| && p[|p| - |TruncationMarker|..] == TruncationMarker
  {
    var summary := TokenSummary(tok, userPrompt);
    ThreeParts(instructions, SummarizedSeparator, summary);
    if |TruncationMarker| <= |summary| then
      SharedSuffix(instructions + SummarizedSeparator, summary, |TruncationMarker|);
      instructions + SummarizedSeparator + summary
    else
      instructions + SummarizedSeparator + summary
  }

  /** The three parts of `a + b + c` are where their lengths put them. */
  lemma ThreeParts(a: string, b: string, c: string)
    ensures (a + b + c)[..|a|] == a
    ensures (a + b + c)[|a|..|a| + |b|] == b
    ensures (a + b + c)[|a| + |b|..] == c
  {
    assert a + b + c == a + (b + c);
  }

  /** Appending to `x` keeps the last `k` elements of `c`. */
  lemma SharedSuffix(x: string, c: string, k: nat)
    requires k <= |c|
    ensures (x + c)[|x + c| - k..] == c[|c| - k..]
  {
  }

  /** A prompt of `tokens` tokens leaves room for the full completion budget. */
  predicate Fits(tokens: int)
  {
    FitsContext(tokens, MaxCompletionTokens, ModelContextLimit)
  }

  /**
   * Direct exactly when the direct prompt fits; summarized when only the
   * fallback fits; an error exactly when neither fits. Whatever prompt is
   * returned starts with the instructions, fits, and carries its own token
   * count.
   */
  function PreparePromptOrFallback(tok: Tokenizer, userPrompt: string, instructions: string)
    : (r: Result<PreparedPrompt, FallbackError>)
    ensures r.Ok? ==> r.value.promptTokens == Count(tok, r.value.prompt) && Fits(r.value.promptTokens)
    ensures r.Ok? ==> instructions <= r.value.prompt
    ensures (r.Ok? && r.value.mode == Direct) <==> Fits(Count(tok, DirectPrompt(userPrompt, instructions)))
    ensures r.Ok? && r.value.mode == Direct ==> r.value.prompt == DirectPrompt(userPrompt, instructions)
    ensures r.Ok? && r.value.mode == Summarized ==> r.value.prompt == FallbackPrompt(tok, userPrompt, instructions)
    ensures r.Err? <==>
              !Fits(Count(tok, DirectPrompt(userPrompt, instructions)))
              && !Fits(Count(tok, FallbackPrompt(tok, userPrompt, instructions)))
  {
    var fullPrompt := DirectPrompt(userPrompt, instructions);
    var promptTokens := Count(tok, fullPrompt);
    if Fits(promptTokens) then
      Ok(PreparedPrompt(Direct, fullPrompt, promptTokens))
    else
      var fallbackPrompt := FallbackPrompt(tok, userPrompt, instructions);
      var fallbackTokens := Count(tok, fallbackPrompt);
      if !Fits(fallbackTokens) then Err(TooLargeAfterSummary)
      else Ok(PreparedPrompt(Summarized, fallbackPrompt, fallbackTokens))
  }

  /**
   * The short case of the Context_Limit test (`test_main.py`): "Hi" after
   * "You are a helpful assistant." goes directly to the model under any
   * tokenizer that spends at most one token per character of that prompt.
   */
  lemma ShortPromptIsDirect(tok: Tokenizer)
    requires Count(tok, DirectPrompt("Hi", "You are a helpful assistant.")) <= |DirectPrompt("Hi", "You are a helpful assistant.")|
    ensures var r := PreparePromptOrFallback(tok, "Hi", "You are a helpful assistant.");
      r.Ok? && r.value.mode == Direct
  {
  }

  /**
   * A summarized prompt holds the whole user prompt when that prompt has
   * at most 200 tokens, and otherwise its first 200 tokens and the marker.
   */
  lemma SummarizedPromptContent(tok: Tokenizer, userPrompt: string, instructions: string)
    requires var r := PreparePromptOrFallback(tok, userPrompt, instructions); r.Ok? && r.value.mode == Summarized
    ensures var p := PreparePromptOrFallback(tok, userPrompt, instructions).value.prompt;
      if Count(tok, userPrompt) <= DefaultMaxTokens
      then p == instructions + SummarizedSeparator + userPrompt
      else p == instructions + SummarizedSeparator + tok.decode(tok.encode(userPrompt)[..200]) + TruncationMarker
  {
    DefaultCapSummary(tok, userPrompt);
  }
}

=== FILE: context_summary.dfy ===
/**
 * `token_summary`: the crude "summary" used when a prompt is too long,
 * which keeps only the leading tokens and marks the cut.
 */
module ContextSummary {
  import opened Tokenizers

  /** Tokens kept by default. */
  const DefaultMaxTokens: int := 200

  /** Appended to every truncated text. */
  const TruncationMarker: string := " ... [TRUNCATED SUMMARY]"

  function Max(a: int, b: int): int
  {
    if a >= b then a else b
  }

  /**
   * Python's `tokens[:m]`: the first `m` tokens, all of them when `m` is
   * larger, and for negative `m` all but the last `-m`.
   */
  function SlicePrefix(tokens: seq<int>, m: int): (p: seq<int>)
    ensures p <= tokens
    ensures 0 <= m <= |tokens| ==> |p| == m
    ensures m > |tokens| ==> p == tokens
    ensures m < 0 ==> |p| == Max(0, |tokens| + m)
  {
    if m >= 0 then
      if m <= |tokens| then tokens[..m] else tokens
    else tokens[..Max(0, |tokens| + m)]
  }

  /**
   * `token_summary`: the text itself when it has at most `maxTokens`
   * tokens; otherwise the decoded leading tokens followed by the marker.
   */
  function TokenSummary(tok: Tokenizer, text: string, maxTokens: int := DefaultMaxTokens): (r: string)
    ensures Count(tok, text) <= maxTokens ==> r == text
    ensures Count(tok, text) > maxTokens ==>
              && |TruncationMarker| <= |r|
              && r[|r| - |TruncationMarker|..] == TruncationMarker
              && r[..|r| - |TruncationMarker|] == tok.decode(SlicePrefix(tok.encode(text), maxTokens))
  {
    var tokens := tok.encode(text);
    if |tokens| <= maxTokens then text
    else tok.decode(SlicePrefix(tokens, maxTokens)) + TruncationMarker
  }

  /**
   * With a non-negative cap, a truncated summary keeps exactly the first
   * `maxTokens` tokens of the text, in their order.
   */
  lemma TruncationKeepsLeadingTokens(tok: Tokenizer, text: string, maxTokens: int)
    requires 0 <= maxTokens < Count(tok, text)
    ensures exists kept: seq<int> ::
              && |kept| == maxTokens
              && kept <= tok.encode(text)
              && TokenSummary(tok, text, maxTokens) == tok.decode(kept) + TruncationMarker
  {
    var kept := tok.encode(text)[..maxTokens];
    assert SlicePrefix(tok.encode(text), maxTokens) == kept;
    assert TokenSummary(tok, text, maxTokens) == tok.decode(kept) + TruncationMarker;
  }

  /**
   * A summary differs from its text only when the text has more tokens
   * than the cap; the default cap is 200 tokens.
   */
  lemma DefaultCapSummary(tok: Tokenizer, text: string)
    ensures Count(tok, text) <= 200 ==> TokenSummary(tok, text) == text
    ensures Count(tok, text) > 200 ==>
              TokenSummary(tok, text) == tok.decode(tok.encode(text)[..200]) + TruncationMarker
  {
  }
}

=== FILE: conversation.dfy ===
/**
 * The model-calling service's conversation memory (`USER_MEMORY`): each
 * user's past exchanges are prepended to their next prompt, every request
 * appends the new exchange, and a clear empties the user's log.
 */
module Conversation {
  import opened Results
  import opened Tokenizers
  import opened ServiceState
  import ModelService

  /** The request body's default completion budget. */
  const DefaultMaxCompletionTokens: int := 256

  const UserTag: string := "User: "
  const BotTag: string := "Bot: "

  /** The JSON body of an estimate request; either field may be missing. */
  datatype EstimateBody = EstimateBody(prompt: Option<string>, maxCompletionTokens: Option<int>)

  /** The conversation logs and the estimation service's state. */
  datatype Server = Server(memory: map<string, seq<string>>, service: ModelService.Cached<string>)

  /** The text sent back and the server after a request. */
  datatype Exchange = Exchange(response: string, server: Server)

  /** The `x-user-id` header, or the anonymous user when it is missing. */
  function UserId(header: Option<string>): (userId: string)
    ensures header.None? ==> userId == AnonymousUser
    ensures header.Some? ==> userId == header.value
  {
    header.GetOr(AnonymousUser)
  }

  /** `sep.join(parts)`. */
  function Join(parts: seq<string>, sep: string): string
  {
    if |parts| == 0 then ""
    else if |parts| == 1 then parts[0]
    else parts[0] + sep + Join(parts[1..], sep)
  }

  /** Joining one more part adds the separator and that part at the end. */
  lemma {:induction false} JoinAppend(parts: seq<string>, last: string, sep: string)
    requires |parts| > 0
    ensures Join(parts + [last], sep) == Join(parts, sep) + sep + last
    decreases |parts|
  {
    if |parts| == 1 {
      assert (parts + [last])[1..] == [last];
    } else {
      assert (parts + [last])[1..] == parts[1..] + [last];
      JoinAppend(parts[1..], last, sep);
    }
  }

  /** The user's log so far, empty for a user with none. */
  function History(memory: map<string, seq<string>>, userId: string): seq<string>
  {
    if userId in memory then memory[userId] else []
  }

  /** The remembered conversation put before the prompt: nothing for a user without a log. */
  function MemoryPrefix(memory: map<string, seq<string>>, userId: string): (p: string)
    ensures userId !in memory ==> p == ""
    ensures userId in memory ==> 0 < |p| && p[|p| - 1] == '\n' && p[..|p| - 1] == Join(memory[userId], "\n")
  {
    if userId in memory then Join(memory[userId], "\n") + "\n" else ""
  }

  /** The prompt actually sent: the remembered conversation, then the new prompt. */
  function FullPrompt(memory: map<string, seq<string>>, userId: string, prompt: string): (full: string)
    ensures userId !in memory ==> full == prompt
    ensures userId in memory ==> full == Join(memory[userId], "\n") + "\n" + prompt
  {
    MemoryPrefix(memory, userId) + prompt
  }

  /** `text.replace("\n", " ")`: the same text on one line. */
  function FlattenNewlines(text: string): (flat: string)
    ensures |flat| == |text|
    ensures '\n' !in flat
    ensures forall i | 0 <= i < |text| && text[i] != '\n' :: flat[i] == text[i]
    ensures forall i | 0 <= i < |text| && text[i] == '\n' :: flat[i] == ' '
  {
    if |text| == 0 then ""
    else [if text[0] == '\n' then ' ' else text[0]] + FlattenNewlines(text[1..])
  }

  /**
   * The `/estimate` endpoint. The prompt (default empty) is sent with the
   * user's remembered conversation in front of it and the completion budget
   * (default 256). The user's log then gains exactly the raw prompt and the
   * model's reply, in that order; no other log changes. The reply is sent
   * back on one line.
   */
  function Estimate(model: ModelService.Model, tok: Tokenizer, srv: Server,
                    header: Option<string>, body: EstimateBody): (x: Exchange)
    ensures var userId := UserId(header);
      var prompt := body.prompt.GetOr("");
      var step := ModelService.ProcessEstimate(model, tok, srv.service,
                    FullPrompt(srv.memory, userId, prompt),
                    body.maxCompletionTokens.GetOr(DefaultMaxCompletionTokens), userId);
      && x.server.service == step.state
      && x.server.memory.Keys == srv.memory.Keys + {userId}
      && x.server.memory[userId] == History(srv.memory, userId) + [UserTag + prompt, BotTag + step.result.modelResponse]
      && (forall u | u in srv.memory && u != userId :: x.server.memory[u] == srv.memory[u])
      && x.response == FlattenNewlines(step.result.modelResponse)
  {
    var userId := UserId(header);
    var prompt := body.prompt.GetOr("");
    var maxCompletion := body.maxCompletionTokens.GetOr(DefaultMaxCompletionTokens);
    var fullPrompt := FullPrompt(srv.memory, userId, prompt);
    var step := ModelService.ProcessEstimate(model, tok, srv.service, fullPrompt, maxCompletion, userId);
    var memory := Remember(srv.memory, userId, [UserTag + prompt, BotTag + step.result.modelResponse]);
    Exchange(FlattenNewlines(step.result.modelResponse), Server(memory, step.state))
  }

  /** The user's log gains `lines` at its end; every other log stays as it was. */
  function Remember(memory: map<string, seq<string>>, userId: string, lines: seq<string>)
    : (after: map<string, seq<string>>)
    ensures after.Keys == memory.Keys + {userId}
    ensures after[userId] == History(memory, userId) + lines
    ensures forall u | u in memory && u != userId :: after[u] == memory[u]
  {
    memory[userId := History(memory, userId) + lines]
  }

  /** The `/clear` endpoint: the user's log becomes empty; nothing else changes. */
  function ClearMemory(srv: Server, header: Option<string>): (after: Server)
    ensures after.service == srv.service
    ensures after.memory.Keys == srv.memory.Keys + {UserId(header)}
    ensures after.memory[UserId(header)] == []
    ensures forall u | u in srv.memory && u != UserId(header) :: after.memory[u] == srv.memory[u]
  {
    Server(srv.memory[UserId(header) := []], srv.service)
  }

  /**
   * After a clear the user still has a (now empty) log, so the next prompt
   * is sent behind a lone newline rather than on its own.
   */
  lemma ClearedPromptStartsWithNewline(srv: Server, header: Option<string>, prompt: string)
    ensures FullPrompt(ClearMemory(srv, header).memory, UserId(header), prompt) == "\n" + prompt
  {
  }

  /**
   * The remembered conversation grows by exactly the two new log lines,
   * each ended by a newline, when the user had no log or a non-empty one.
   * After a clear, the lone leading newline is dropped instead.
   */
  lemma MemoryPrefixAfterEstimate(model: ModelService.Model, tok: Tokenizer, srv: Server,
                                  header: Option<string>, body: EstimateBody)
    ensures var userId := UserId(header);
      var log := Estimate(model, tok, srv, header, body).server.memory[userId];
      var n := |History(srv.memory, userId)|;
      && |log| == n + 2
      && var exchange := log[n] + "\n" + log[n + 1] + "\n";
      if userId in srv.memory && srv.memory[userId] == []
      then MemoryPrefix(srv.memory, userId) == "\n"
           && MemoryPrefix(Estimate(model, tok, srv, header, body).server.memory, userId) == exchange
      else MemoryPrefix(Estimate(model, tok, srv, header, body).server.memory, userId)
           == MemoryPrefix(srv.memory, userId) + exchange
  {
    var userId := UserId(header);
    var prompt := body.prompt.GetOr("");
    var step := ModelService.ProcessEstimate(model, tok, srv.service, FullPrompt(srv.memory, userId, prompt),
                                             body.maxCompletionTokens.GetOr(DefaultMaxCompletionTokens), userId);
    var x := Estimate(model, tok, srv, header, body);
    PrefixOfExtendedLog(srv.memory, userId, x.server.memory, UserTag + prompt, BotTag + step.result.modelResponse);
  }

  /** The remembered conversation once a user's log gains two lines. */
  lemma PrefixOfExtendedLog(memory: map<string, seq<string>>, userId: string,
                            after: map<string, seq<string>>, userLine: string, botLine: string)
    requires userId in after && after[userId] == History(memory, userId) + [userLine, botLine]
    ensures var exchange := userLine + "\n" + botLine + "\n";
      if userId in memory && memory[userId] == []
      then MemoryPrefix(memory, userId) == "\n" && MemoryPrefix(after, userId) == exchange
      else MemoryPrefix(after, userId) == MemoryPrefix(memory, userId) + exchange
  {
    var old_ := History(memory, userId);
    var log := after[userId];
    assert log == old_ + [userLine] + [botLine];
    if |old_| == 0 {
      assert log[1..] == [botLine];
      assert Join(log, "\n") == userLine + "\n" + botLine;
    } else {
      JoinAppend(old_, userLine, "\n");
      JoinAppend(old_ + [userLine], botLine, "\n");
    }
  }
}

=== FILE: estimate_service.dfy ===
/**
 * The estimate-only service's `process_estimate`: count the prompt's
 * tokens, check the fit and price the worst case (the full completion
 * budget), with a result cache in front and a per-user running cost
 * behind. The service as written keys its cache by the string
 * `f"{user_id}:{prompt}:{max_completion_tokens}"`; a corrected service
 * keys it by the request itself.
 */
module EstimateService {
  import opened Tokenizers
  import opened TokenEconomics
  import opened ServiceState

  /** Settings read from the environment, with their defaults. */
  datatype Config = Config(modelContextLimit: int, promptRatePerMillion: real, completionRatePerMillion: real)

  const DefaultConfig: Config := Config(16000, 1.0, 2.0)

  /** The request body's default completion budget. */
  const DefaultMaxCompletionTokens: int := 512

  /** What a request returns (the request's duration is left out). */
  datatype Estimate = Estimate(promptTokens: nat, fitsContext: bool, estimatedMaxCostUsd: real)

  /** The service's state: its cache under keys `K`, and the running costs. */
  type Cached<K(==)> = State<K, Estimate>

  /**
   * `estimate_cost`: the price of the prompt and of the full completion
   * budget, which is the most any completion of at most that budget costs.
   */
  function WorstCaseCost(cfg: Config, promptTokens: int, maxCompletionTokens: int): (cost: real)
    ensures cost == EstimateCost(promptTokens, maxCompletionTokens, cfg.promptRatePerMillion, cfg.completionRatePerMillion)
    ensures 0.0 <= cfg.completionRatePerMillion ==>
              forall completion | completion <= maxCompletionTokens ::
                EstimateCost(promptTokens, completion, cfg.promptRatePerMillion, cfg.completionRatePerMillion) <= cost
  {
    var cost := EstimateCost(promptTokens, maxCompletionTokens, cfg.promptRatePerMillion, cfg.completionRatePerMillion);
    if 0.0 <= cfg.completionRatePerMillion then
      assert forall completion | completion <= maxCompletionTokens ::
          EstimateCost(promptTokens, completion, cfg.promptRatePerMillion, cfg.completionRatePerMillion) <= cost by {
        forall completion | completion <= maxCompletionTokens
          ensures EstimateCost(promptTokens, completion, cfg.promptRatePerMillion, cfg.completionRatePerMillion) <= cost
        {
          EstimateCostMonotoneInCompletion(promptTokens, completion, maxCompletionTokens,
                                           cfg.promptRatePerMillion, cfg.completionRatePerMillion);
        }
      }
      cost
    else
      cost
  }

  /**
   * The estimate of a request computed afresh: the prompt's tokens, whether
   * they and the full budget fit the configured window, and the worst-case
   * price.
   */
  function EstimateOf(cfg: Config, tok: Tokenizer, prompt: string, maxCompletionTokens: int): (e: Estimate)
    ensures e.promptTokens == Count(tok, prompt)
    ensures e.fitsContext <==> Count(tok, prompt) + maxCompletionTokens <= cfg.modelContextLimit
    ensures e.estimatedMaxCostUsd
         == EstimateCost(Count(tok, prompt), maxCompletionTokens, cfg.promptRatePerMillion, cfg.completionRatePerMillion)
  {
    var promptTokens := Count(tok, prompt);
    Estimate(promptTokens, FitsContext(promptTokens, maxCompletionTokens, cfg.modelContextLimit),
             WorstCaseCost(cfg, promptTokens, maxCompletionTokens))
  }

  /**
   * `process_estimate` as written. A request whose written key is cached is
   * answered from the cache and changes nothing; otherwise the fresh
   * estimate is charged to the caller and cached under the written key.
   */
  function ProcessEstimate(cfg: Config, tok: Tokenizer, s: Cached<string>, prompt: string,
                           maxCompletionTokens: int, userId: string := AnonymousUser): (step: Step<string, Estimate>)
    ensures var key := LegacyCacheKey(userId, prompt, maxCompletionTokens);
      key in s.cache ==> step == Step(s.cache[key], s)
    ensures var key := LegacyCacheKey(userId, prompt, maxCompletionTokens);
      var e := EstimateOf(cfg, tok, prompt, maxCompletionTokens);
      key !in s.cache ==> ComputedFresh(s, key, userId, e, e.estimatedMaxCostUsd, step)
  {
    var e := EstimateOf(cfg, tok, prompt, maxCompletionTokens);
    Serve(s, LegacyCacheKey(userId, prompt, maxCompletionTokens), userId, e, e.estimatedMaxCostUsd)
  }

  /** `process_estimate` with the cache keyed by the request itself. */
  function ProcessEstimateCorrected(cfg: Config, tok: Tokenizer, s: Cached<CacheKey>, prompt: string,
                                    maxCompletionTokens: int, userId: string := AnonymousUser)
    : (step: Step<CacheKey, Estimate>)
    ensures var key := RequestKey(userId, prompt, maxCompletionTokens);
      key in s.cache ==> step == Step(s.cache[key], s)
    ensures var key := RequestKey(userId, prompt, maxCompletionTokens);
      var e := EstimateOf(cfg, tok, prompt, maxCompletionTokens);
      key !in s.cache ==> ComputedFresh(s, key, userId, e, e.estimatedMaxCostUsd, step)
  {
    var e := EstimateOf(cfg, tok, prompt, maxCompletionTokens);
    Serve(s, RequestKey(userId, prompt, maxCompletionTokens), userId, e, e.estimatedMaxCostUsd)
  }

  /** The estimate a request key stands for. */
  function Answer(cfg: Config, tok: Tokenizer): CacheKey -> Estimate
  {
    (k: CacheKey) => EstimateOf(cfg, tok, k.prompt, k.maxCompletionTokens)
  }

  /**
   * Repeating a request is a cache hit: the same result, and no further
   * charge or state change.
   */
  lemma RepeatedRequestIsCached(cfg: Config, tok: Tokenizer, s: Cached<string>, prompt: string,
                                maxCompletionTokens: int, userId: string)
    ensures var first := ProcessEstimate(cfg, tok, s, prompt, maxCompletionTokens, userId);
      ProcessEstimate(cfg, tok, first.state, prompt, maxCompletionTokens, userId) == first
  {
  }

  /**
   * With non-negative rates and a non-negative completion budget, a
   * request never lowers anyone's running cost, and raises only the
   * caller's.
   */
  lemma BudgetsOnlyGrowForCaller(cfg: Config, tok: Tokenizer, s: Cached<string>, prompt: string,
                                 maxCompletionTokens: int, userId: string)
    requires 0.0 <= cfg.promptRatePerMillion && 0.0 <= cfg.completionRatePerMillion
    requires 0 <= maxCompletionTokens
    ensures var after := ProcessEstimate(cfg, tok, s, prompt, maxCompletionTokens, userId).state;
      forall u :: Spent(s.budget, u) <= Spent(after.budget, u)
                  && (u != userId ==> Spent(after.budget, u) == Spent(s.budget, u))
  {
  }

  /**
   * With the default settings and the request body's default budget of 512
   * tokens, a fresh estimate fits exactly when the prompt has at most
   * 15488 tokens, and a million times its price is the prompt's tokens
   * plus 1024.
   */
  lemma DefaultRequestEstimate(tok: Tokenizer, s: Cached<string>, prompt: string, userId: string)
    requires LegacyCacheKey(userId, prompt, DefaultMaxCompletionTokens) !in s.cache
    ensures var r := ProcessEstimate(DefaultConfig, tok, s, prompt, DefaultMaxCompletionTokens, userId).result;
      && (r.fitsContext <==> Count(tok, prompt) <= 15488)
      && r.estimatedMaxCostUsd * TokensPerMillion == Count(tok, prompt) as real + 1024.0
  {
    EstimateCostScaled(Count(tok, prompt), DefaultMaxCompletionTokens, 1.0, 2.0);
  }

  /**
   * The written key's collision at the level of the service: once user
   * "alice:x" has asked "y" for the first time, user "alice" asking "x:y"
   * is served the first user's result (the token count of "y") and is
   * charged nothing.
   */
  lemma CollidingUserIsServedCachedResult(cfg: Config, tok: Tokenizer, s: Cached<string>)
    requires LegacyCacheKey("alice:x", "y", 512) !in s.cache
    ensures var first := ProcessEstimate(cfg, tok, s, "y", 512, "alice:x");
      var second := ProcessEstimate(cfg, tok, first.state, "x:y", 512, "alice");
      && second.result == first.result
      && second.result.promptTokens == Count(tok, "y")
      && second.state == first.state
  {
    LegacyCacheKeyCollides();
  }

  /**
   * The corrected service always answers with the estimate of the request
   * actually asked, hit or miss, and keeps its cache that way.
   */
  lemma CorrectedServiceAnswersTheRequest(cfg: Config, tok: Tokenizer, s: Cached<CacheKey>, prompt: string,
                                          maxCompletionTokens: int, userId: string)
    requires CacheAnswersItsKeys(s, Answer(cfg, tok))
    ensures var step := ProcessEstimateCorrected(cfg, tok, s, prompt, maxCompletionTokens, userId);
      && step.result == EstimateOf(cfg, tok, prompt, maxCompletionTokens)
      && CacheAnswersItsKeys(step.state, Answer(cfg, tok))
  {
    var key := RequestKey(userId, prompt, maxCompletionTokens);
    ServeKeepsAnswers(s, Answer(cfg, tok), key, userId, Answer(cfg, tok)(key).estimatedMaxCostUsd);
  }

  /**
   * While no user id holds a colon, the service as written behaves exactly
   * like the corrected one: the same result, and states that still mirror
   * each other.
   */
  lemma WrittenKeyAgreesWithoutColon(cfg: Config, tok: Tokenizer, written: Cached<string>, corrected: Cached<CacheKey>,
                                     prompt: string, maxCompletionTokens: int, userId: string)
    requires Mirrors(written, corrected) && ':' !in userId
    ensures var w := ProcessEstimate(cfg, tok, written, prompt, maxCompletionTokens, userId);
      var c := ProcessEstimateCorrected(cfg, tok, corrected, prompt, maxCompletionTokens, userId);
      w.result == c.result && Mirrors(w.state, c.state)
  {
    var e := EstimateOf(cfg, tok, prompt, maxCompletionTokens);
    ServeAgreesWithoutColon(written, corrected, userId, prompt, maxCompletionTokens, e, e.estimatedMaxCostUsd);
  }
}

=== FILE: model_service.dfy ===
/**
 * The model-calling service's `process_estimate`: call the model, then
 * count the prompt and the reply actually received, check the fit and
 * price both, with the same cache in front and running cost behind as the
 * estimate-only service.
 */
module ModelService {
  import opened Tokenizers
  import opened TokenEconomics
  import opened ServiceState

  const ModelContextLimit: int := 16000
  const PromptRatePerMillion: real := 1.0
  const CompletionRatePerMillion: real := 2.0

  /** Prefix of the text that stands in for the reply when the call raises. */
  const ModelErrorPrefix: string := "[ERROR CALLING MODEL]: "

  /** How a chat-completion call ended: with the reply's text, or raising with a message. */
  datatype ModelCall = Completed(content: string) | Raised(message: string)

  /** The model, as a function of the prompt and the completion budget. */
  type Model = (string, int) -> ModelCall

  /** What a request returns, the model's reply included. */
  datatype Reply = Reply(
    promptTokens: nat,
    completionTokens: nat,
    fitsContext: bool,
    estimatedMaxCostUsd: real,
    modelResponse: string)

  /** The service's state: its cache under keys `K`, and the running costs. */
  type Cached<K(==)> = State<K, Reply>

  /**
   * `get_model_response`: the reply's text, or, when the call raises, the
   * error message behind a fixed prefix. It never fails.
   */
  function ModelResponse(call: ModelCall): (text: string)
    ensures call.Completed? ==> text == call.content
    ensures call.Raised? ==> |ModelErrorPrefix| <= |text|
                             && text[..|ModelErrorPrefix|] == ModelErrorPrefix
                             && text[|ModelErrorPrefix|..] == call.message
  {
    match call
    case Completed(content) => content
    case Raised(message) => ModelErrorPrefix + message
  }

  /**
   * The reply to a request computed afresh: the model is called, and the
   * fit and the cost use the tokens of the text it returned (an error text
   * counts like a reply).
   */
  function ReplyOf(model: Model, tok: Tokenizer, prompt: string, maxCompletionTokens: int): (r: Reply)
    ensures r.modelResponse == ModelResponse(model(prompt, maxCompletionTokens))
    ensures r.promptTokens == Count(tok, prompt)
    ensures r.completionTokens == Count(tok, r.modelResponse)
    ensures r.fitsContext <==> Count(tok, prompt) + r.completionTokens <= ModelContextLimit
    ensures r.estimatedMaxCostUsd
         == EstimateCost(Count(tok, prompt), r.completionTokens, PromptRatePerMillion, CompletionRatePerMillion)
  {
    var modelResponse := ModelResponse(model(prompt, maxCompletionTokens));
    var promptTokens := Count(tok, prompt);
    var completionTokens := Count(tok, modelResponse);
    Reply(promptTokens, completionTokens, FitsContext(promptTokens, completionTokens, ModelContextLimit),
          EstimateCost(promptTokens, completionTokens, PromptRatePerMillion, CompletionRatePerMillion),
          modelResponse)
  }

  /**
   * `process_estimate` as written. A request whose written key is cached is
   * answered from the cache, without calling the model or charging anyone.
   * Otherwise the model is called, and the fresh reply is charged to the
   * caller and cached under the written key.
   */
  function ProcessEstimate(model: Model, tok: Tokenizer, s: Cached<string>, prompt: string,
                           maxCompletionTokens: int, userId: string): (step: Step<string, Reply>)
    ensures var key := LegacyCacheKey(userId, prompt, maxCompletionTokens);
      key in s.cache ==> step == Step(s.cache[key], s)
    ensures var key := LegacyCacheKey(userId, prompt, maxCompletionTokens);
      var r := ReplyOf(model, tok, prompt, maxCompletionTokens);
      key !in s.cache ==> ComputedFresh(s, key, userId, r, r.estimatedMaxCostUsd, step)
  {
    var r := ReplyOf(model, tok, prompt, maxCompletionTokens);
    Serve(s, LegacyCacheKey(userId, prompt, maxCompletionTokens), userId, r, r.estimatedMaxCostUsd)
  }

  /** `process_estimate` with the cache keyed by the request itself. */
  function ProcessEstimateCorrected(model: Model, tok: Tokenizer, s: Cached<CacheKey>, prompt: string,
                                    maxCompletionTokens: int, userId: string): (step: Step<CacheKey, Reply>)
    ensures var key := RequestKey(userId, prompt, maxCompletionTokens);
      key in s.cache ==> step == Step(s.cache[key], s)
    ensures var key := RequestKey(userId, prompt, maxCompletionTokens);
      var r := ReplyOf(model, tok, prompt, maxCompletionTokens);
      key !in s.cache ==> ComputedFresh(s, key, userId, r, r.estimatedMaxCostUsd, step)
  {
    var r := ReplyOf(model, tok, prompt, maxCompletionTokens);
    Serve(s, RequestKey(userId, prompt, maxCompletionTokens), userId, r, r.estimatedMaxCostUsd)
  }

  /** The reply a request key stands for, under a model fixed for the whole run. */
  function Answer(model: Model, tok: Tokenizer): CacheKey -> Reply
  {
    (k: CacheKey) => ReplyOf(model, tok, k.prompt, k.maxCompletionTokens)
  }

  /** A cache hit does not depend on the model at all: it is never called. */
  lemma CacheHitIgnoresModel(model1: Model, model2: Model, tok: Tokenizer, s: Cached<string>, prompt: string,
                             maxCompletionTokens: int, userId: string)
    requires LegacyCacheKey(userId, prompt, maxCompletionTokens) in s.cache
    ensures ProcessEstimate(model1, tok, s, prompt, maxCompletionTokens, userId)
         == ProcessEstimate(model2, tok, s, prompt, maxCompletionTokens, userId)
  {
  }

  /** Repeating a request returns the first reply and changes nothing more. */
  lemma RepeatedRequestIsCached(model: Model, tok: Tokenizer, s: Cached<string>, prompt: string,
                                maxCompletionTokens: int, userId: string)
    ensures var first := ProcessEstimate(model, tok, s, prompt, maxCompletionTokens, userId);
      ProcessEstimate(model, tok, first.state, prompt, maxCompletionTokens, userId) == first
  {
  }

  /**
   * A failing model call does not fail the request: the error text is the
   * reply, and it is counted, priced and charged like any other.
   */
  lemma FailedCallIsCharged(model: Model, tok: Tokenizer, s: Cached<string>, prompt: string,
                            maxCompletionTokens: int, userId: string)
    requires LegacyCacheKey(userId, prompt, maxCompletionTokens) !in s.cache
    requires model(prompt, maxCompletionTokens).Raised?
    ensures var step := ProcessEstimate(model, tok, s, prompt, maxCompletionTokens, userId);
      && step.result.modelResponse == ModelErrorPrefix + model(prompt, maxCompletionTokens).message
      && step.result.completionTokens == Count(tok, ModelErrorPrefix + model(prompt, maxCompletionTokens).message)
      && 0.0 <= step.result.estimatedMaxCostUsd
      && Spent(step.state.budget, userId) == Spent(s.budget, userId) + step.result.estimatedMaxCostUsd
  {
  }

  /**
   * The written key's collision at the level of the service: once user
   * "alice:x" has asked "y" for the first time, user "alice" asking "x:y"
   * gets the model's reply to the other user's prompt, without a call and
   * without a charge.
   */
  lemma CollidingUserGetsOtherUsersReply(model: Model, tok: Tokenizer, s: Cached<string>)
    requires LegacyCacheKey("alice:x", "y", 512) !in s.cache
    ensures var first := ProcessEstimate(model, tok, s, "y", 512, "alice:x");
      var second := ProcessEstimate(model, tok, first.state, "x:y", 512, "alice");
      && second.result.modelResponse == ModelResponse(model("y", 512))
      && second.result == first.result
      && second.state == first.state
  {
    LegacyCacheKeyCollides();
  }

  /**
   * With a model that answers a prompt the same way each time, the
   * corrected service always returns the reply to the request actually
   * asked, hit or miss, and keeps its cache that way.
   */
  lemma CorrectedServiceAnswersTheRequest(model: Model, tok: Tokenizer, s: Cached<CacheKey>, prompt: string,
                                          maxCompletionTokens: int, userId: string)
    requires CacheAnswersItsKeys(s, Answer(model, tok))
    ensures var step := ProcessEstimateCorrected(model, tok, s, prompt, maxCompletionTokens, userId);
      && step.result == ReplyOf(model, tok, prompt, maxCompletionTokens)
      && CacheAnswersItsKeys(step.state, Answer(model, tok))
  {
    var key := RequestKey(userId, prompt, maxCompletionTokens);
    ServeKeepsAnswers(s, Answer(model, tok), key, userId, Answer(model, tok)(key).estimatedMaxCostUsd);
  }

  /**
   * While no user id holds a colon, the service as written behaves exactly
   * like the corrected one: the same reply, and states that still mirror
   * each other.
   */
  lemma WrittenKeyAgreesWithoutColon(model: Model, tok: Tokenizer, written: Cached<string>,
                                     corrected: Cached<CacheKey>, prompt: string, maxCompletionTokens: int,
                                     userId: string)
    requires Mirrors(written, corrected) && ':' !in userId
    ensures var w := ProcessEstimate(model, tok, written, prompt, maxCompletionTokens, userId);
      var c := ProcessEstimateCorrected(model, tok, corrected, prompt, maxCompletionTokens, userId);
      w.result == c.result && Mirrors(w.state, c.state)
  {
    var r := ReplyOf(model, tok, prompt, maxCompletionTokens);
    ServeAgreesWithoutColon(written, corrected, userId, prompt, maxCompletionTokens, r, r.estimatedMaxCostUsd);
  }
}

=== FILE: results.dfy ===
/** Failure-carrying values shared by every module of the model. */
module Results {

  /** A value that may be absent: an optional HTTP header or JSON field. */
  datatype Option<+T> = None | Some(value: T) {

    /** The carried value, or `default` when absent (Python's `dict.get(key, default)`). */
    function GetOr(default: T): (r: T)
      ensures Some? ==> r == value
      ensures None? ==> r == default
    {
      match this
      case Some(v) => v
      case None => default
    }
  }

  /** Either a computed value or the error the source raises instead of returning. */
  datatype Result<+T, +E> = Ok(value: T) | Err(error: E)
}

=== FILE: service_state.dfy ===
/**
 * State shared by the two estimation services: the result cache, its
 * key, the per-user running cost (`USER_BUDGET`), and the request logic
 * both services wrap around their own computation.
 */
module ServiceState {

  /** The user of a request that names none. */
  const AnonymousUser: string := "anonymous"

  /** Identity of a request for caching: user, prompt and completion budget. */
  datatype CacheKey = CacheKey(userId: string, prompt: string, maxCompletionTokens: int)

  /** USD spent so far by `userId`, zero for a user never charged. */
  function Spent(budget: map<string, real>, userId: string): real
  {
    if userId in budget then budget[userId] else 0.0
  }

  /**
   * `USER_BUDGET[user_id] = USER_BUDGET.get(user_id, 0) + total_cost`:
   * the caller's spend grows by exactly `cost`; every other user keeps
   * theirs, and no other user is added.
   */
  function Charge(budget: map<string, real>, userId: string, cost: real): (b: map<string, real>)
    ensures b.Keys == budget.Keys + {userId}
    ensures forall u :: Spent(b, u) == Spent(budget, u) + (if u == userId then cost else 0.0)
  {
    budget[userId := Spent(budget, userId) + cost]
  }

  /** Two charges to one user add up; charges to different users commute. */
  lemma ChargesCompose(budget: map<string, real>, u1: string, c1: real, u2: string, c2: real)
    ensures u1 == u2 ==> Charge(Charge(budget, u1, c1), u2, c2) == Charge(budget, u1, c1 + c2)
    ensures u1 != u2 ==> Charge(Charge(budget, u1, c1), u2, c2) == Charge(Charge(budget, u2, c2), u1, c1)
  {
  }

  /** The cache key of a request, as a triple that tells any two requests apart. */
  function RequestKey(userId: string, prompt: string, maxCompletionTokens: int): (k: CacheKey)
    ensures k.userId == userId && k.prompt == prompt && k.maxCompletionTokens == maxCompletionTokens
  {
    CacheKey(userId, prompt, maxCompletionTokens)
  }

  /** Two requests share a cache entry exactly when they are the same request. */
  lemma RequestKeyInjective(u1: string, p1: string, m1: int, u2: string, p2: string, m2: int)
    ensures RequestKey(u1, p1, m1) == RequestKey(u2, p2, m2) <==> u1 == u2 && p1 == p2 && m1 == m2
  {
  }

  // ---------------------------------------------------------------------
  // The key as the services write it: f"{user_id}:{prompt}:{max}".
  // ---------------------------------------------------------------------

  function DigitChar(d: nat): (c: char)
    requires d < 10
    ensures '0' <= c <= '9'
  {
    ('0' as int + d) as char
  }

  /** The value of a digit character; a non-digit reads as 0. */
  function DigitValue(c: char): (d: nat)
    ensures d < 10
    ensures '0' <= c <= '9' ==> DigitChar(d) == c
  {
    if '0' <= c <= '9' then (c as int - '0' as int) else 0
  }

  /** The number a run of decimal digits denotes, most significant first. */
  function DigitsValue(s: string): nat
  {
    if |s| == 0 then 0 else 10 * DigitsValue(s[..|s| - 1]) + DigitValue(s[|s| - 1])
  }

  /**
   * Decimal digits of `n`, most significant first: a run of digits that
   * denotes `n`, with no leading zero except for 0 itself.
   */
  function NatDigits(n: nat): (s: string)
    ensures 0 < |s|
    ensures n >= 10 ==> |s| >= 2
    ensures forall i :: 0 <= i < |s| ==> '0' <= s[i] <= '9'
    ensures DigitsValue(s) == n
    ensures n > 0 ==> s[0] != '0'
    decreases n
  {
    if n < 10 then [DigitChar(n)]
    else
      var front := NatDigits(n / 10);
      var last := DigitChar(n % 10);
      assert (front + [last])[..|front|] == front;
      front + [last]
  }

  /**
   * `str(n)` for an int: a minus sign for negatives, then the digits of the
   * magnitude, which denote it.
   */
  function DecimalString(n: int): (s: string)
    ensures ':' !in s
    ensures 0 < |s|
    ensures s[0] == '-' <==> n < 0
    ensures n >= 0 ==> DigitsValue(s) == n && (n > 0 ==> s[0] != '0')
    ensures n < 0 ==> DigitsValue(s[1..]) == -n && s[1] != '0'
  {
    if n < 0 then
      var digits := NatDigits(-n);
      assert ("-" + digits)[1..] == digits;
      "-" + digits
    else NatDigits(n)
  }

  /** Distinct integers print differently: a rendering reads back as its number. */
  lemma DecimalStringInjective(a: int, b: int)
    requires DecimalString(a) == DecimalString(b)
    ensures a == b
  {
    var s := DecimalString(a);
    if a < 0 {
      assert b < 0 && -a == DigitsValue(s[1..]) == -b;
    } else {
      assert b >= 0 && a == DigitsValue(s) == b;
    }
  }

  /** The cache key both services build. */
  function LegacyCacheKey(userId: string, prompt: string, maxCompletionTokens: int): (key: string)
    ensures |key| == |userId| + |prompt| + |DecimalString(maxCompletionTokens)| + 2
    ensures key[..|userId|] == userId
    ensures key[|userId|] == ':'
    ensures key[|userId| + 1 .. |key| - |DecimalString(maxCompletionTokens)| - 1] == prompt
    ensures key[|key| - |DecimalString(maxCompletionTokens)| - 1] == ':'
    ensures key[|key| - |DecimalString(maxCompletionTokens)|..] == DecimalString(maxCompletionTokens)
  {
    var budget := DecimalString(maxCompletionTokens);
    var key := userId + ":" + prompt + ":" + budget;
    assert key[..|userId|] == userId;
    assert key[|userId| + 1 .. |key| - |budget| - 1] == prompt;
    assert key[|key| - |budget|..] == budget;
    key
  }

  /**
   * The written key confuses users: user "alice:x" asking "y" and user
   * "alice" asking "x:y" share one cache entry, so the second is served
   * the first's result and is never charged for it.
   */
  lemma LegacyCacheKeyCollides()
    ensures "alice:x" != "alice"
    ensures LegacyCacheKey("alice:x", "y", 512) == LegacyCacheKey("alice", "x:y", 512)
    ensures RequestKey("alice:x", "y", 512) != RequestKey("alice", "x:y", 512)
    ensures LegacyCacheKey("alice", "x:y", 512) == "alice:x:y:512"
  {
    RenderedBudget512();
    assert "alice:x"[5] == ':';
    var d := DecimalString(512);
    assert "alice:x" + ":" + "y" + ":" + d == "alice" + ":" + "x:y" + ":" + d;
  }

  /** The budget 512 renders as "512". */
  lemma RenderedBudget512()
    ensures DecimalString(512) == "512"
  {
    assert NatDigits(5) == "5";
    assert NatDigits(51) == "51";
  }

  /** In `head + ":" + tail`, the colon after a colon-free head is the first one. */
  lemma HeadColon(head: string, tail: string, i: nat)
    requires ':' !in head
    ensures (head + [':'] + tail)[|head|] == ':'
    ensures i < |head| ==> (head + [':'] + tail)[i] != ':'
  {
  }

  /** In `head + ":" + tail`, the colon before a colon-free tail is the last one. */
  lemma TailColon(head: string, tail: string, i: nat)
    requires ':' !in tail
    ensures (head + [':'] + tail)[|head|] == ':'
    ensures i < |tail| ==> (head + [':'] + tail)[|head| + 1 + i] != ':'
  {
  }

  /** A colon-free head followed by a colon splits back uniquely. */
  lemma SplitAtFirstColon(head1: string, tail1: string, head2: string, tail2: string)
    requires ':' !in head1 && ':' !in head2
    requires head1 + [':'] + tail1 == head2 + [':'] + tail2
    ensures head1 == head2 && tail1 == tail2
  {
    var s := head1 + [':'] + tail1;
    if |head1| < |head2| {
      HeadColon(head1, tail1, 0);
      assert false;
    } else if |head2| < |head1| {
      HeadColon(head2, tail2, 0);
      assert false;
    }
    assert head1 == s[..|head1|] == head2;
    assert tail1 == s[|head1| + 1..] == tail2;
  }

  /** A colon followed by a colon-free tail splits back uniquely. */
  lemma SplitAtLastColon(head1: string, tail1: string, head2: string, tail2: string)
    requires ':' !in tail1 && ':' !in tail2
    requires head1 + [':'] + tail1 == head2 + [':'] + tail2
    ensures head1 == head2 && tail1 == tail2
  {
    var s := head1 + [':'] + tail1;
    if |tail1| < |tail2| {
      TailColon(head1, tail1, 0);
      assert false;
    } else if |tail2| < |tail1| {
      TailColon(head2, tail2, 0);
      assert false;
    }
    assert tail1 == s[|s| - |tail1|..] == tail2;
    assert head1 == s[..|head1|] == head2;
  }

  lemma LegacyCacheKeyShape(userId: string, prompt: string, maxCompletionTokens: int)
    ensures LegacyCacheKey(userId, prompt, maxCompletionTokens)
         == userId + [':'] + (prompt + [':'] + DecimalString(maxCompletionTokens))
  {
    ColonJoinAssociates(userId, prompt, DecimalString(maxCompletionTokens));
  }

  lemma ColonJoinAssociates(a: string, b: string, c: string)
    ensures a + ":" + b + ":" + c == a + [':'] + (b + [':'] + c)
  {
  }

  /** Among user ids without a colon, the written key does tell requests apart. */
  lemma LegacyCacheKeyInjectiveWithoutColon(u1: string, p1: string, m1: int, u2: string, p2: string, m2: int)
    requires ':' !in u1 && ':' !in u2
    requires LegacyCacheKey(u1, p1, m1) == LegacyCacheKey(u2, p2, m2)
    ensures u1 == u2 && p1 == p2 && m1 == m2
  {
    LegacyCacheKeyShape(u1, p1, m1);
    LegacyCacheKeyShape(u2, p2, m2);
    SplitAtFirstColon(u1, p1 + [':'] + DecimalString(m1), u2, p2 + [':'] + DecimalString(m2));
    SplitAtLastColon(p1, DecimalString(m1), p2, DecimalString(m2));
    DecimalStringInjective(m1, m2);
  }

  // ---------------------------------------------------------------------
  // Serving a request through the cache, whatever the key and the value.
  // ---------------------------------------------------------------------

  /** The cache, keyed by `K` and holding `V`s, and the per-user running cost. */
  datatype State<K(==), V> = State(cache: map<K, V>, budget: map<string, real>)

  /** The result of one request and the state after it. */
  datatype Step<K(==), V> = Step(result: V, state: State<K, V>)

  /**
   * A cache miss for `key`: the fresh value is returned, its cost charged
   * to the caller alone (no other user is added), and it is cached under
   * `key` with no other entry changed.
   */
  ghost predicate ComputedFresh<K, V>(s: State<K, V>, key: K, userId: string, computed: V, cost: real,
                                      step: Step<K, V>)
  {
    && step.result == computed
    && step.state.budget.Keys == s.budget.Keys + {userId}
    && (forall u :: Spent(step.state.budget, u) == Spent(s.budget, u) + (if u == userId then cost else 0.0))
    && step.state.cache.Keys == s.cache.Keys + {key}
    && step.state.cache[key] == computed
    && (forall k | k in s.cache :: step.state.cache[k] == s.cache[k])
  }

  /**
   * One request against the cache entry `key`: a hit returns the cached
   * value and changes nothing; a miss returns `computed`, charges `cost` to
   * the caller and caches `computed` under `key`.
   */
  function Serve<K(==), V>(s: State<K, V>, key: K, userId: string, computed: V, cost: real): (step: Step<K, V>)
    ensures key in s.cache ==> step == Step(s.cache[key], s)
    ensures key !in s.cache ==> ComputedFresh(s, key, userId, computed, cost, step)
  {
    if key in s.cache then Step(s.cache[key], s)
    else Step(computed, State(s.cache[key := computed], Charge(s.budget, userId, cost)))
  }

  /** Every cached value is `answer` of the request it is cached under. */
  ghost predicate CacheAnswersItsKeys<V>(s: State<CacheKey, V>, answer: CacheKey -> V)
  {
    forall k | k in s.cache :: s.cache[k] == answer(k)
  }

  /**
   * A cache keyed by the request, whose entries are what the requests
   * compute, answers every request with what it computes, hit or miss,
   * and stays that way.
   */
  lemma ServeKeepsAnswers<V>(s: State<CacheKey, V>, answer: CacheKey -> V, key: CacheKey, userId: string, cost: real)
    requires CacheAnswersItsKeys(s, answer)
    ensures var step := Serve(s, key, userId, answer(key), cost);
      step.result == answer(key) && CacheAnswersItsKeys(step.state, answer)
  {
    var step := Serve(s, key, userId, answer(key), cost);
    if key !in s.cache {
      forall k | k in step.state.cache
        ensures step.state.cache[k] == answer(k)
      {
        if k != key {
          assert k in s.cache;
        }
      }
    }
  }

  /**
   * A cache under written keys mirrors one under request keys: the same
   * running costs, each request entry stored under its written key, no
   * other written entry, and only colon-free user ids.
   */
  ghost predicate Mirrors<V>(written: State<string, V>, corrected: State<CacheKey, V>)
  {
    && written.budget == corrected.budget
    && (forall k | k in corrected.cache :: ':' !in k.userId)
    && (forall k | k in corrected.cache ::
          && LegacyCacheKey(k.userId, k.prompt, k.maxCompletionTokens) in written.cache
          && written.cache[LegacyCacheKey(k.userId, k.prompt, k.maxCompletionTokens)] == corrected.cache[k])
    && (forall w | w in written.cache ::
          exists k | k in corrected.cache :: w == LegacyCacheKey(k.userId, k.prompt, k.maxCompletionTokens))
  }

  /**
   * While no user id holds a colon, serving a request under its written
   * key does what serving it under the request key does: the same result,
   * and states that still mirror each other.
   */
  lemma ServeAgreesWithoutColon<V>(written: State<string, V>, corrected: State<CacheKey, V>,
                                   userId: string, prompt: string, maxCompletionTokens: int, computed: V, cost: real)
    requires Mirrors(written, corrected) && ':' !in userId
    ensures var w := Serve(written, LegacyCacheKey(userId, prompt, maxCompletionTokens), userId, computed, cost);
      var c := Serve(corrected, RequestKey(userId, prompt, maxCompletionTokens), userId, computed, cost);
      w.result == c.result && Mirrors(w.state, c.state)
  {
    var key := RequestKey(userId, prompt, maxCompletionTokens);
    var wkey := LegacyCacheKey(userId, prompt, maxCompletionTokens);
    var w := Serve(written, wkey, userId, computed, cost);
    var c := Serve(corrected, key, userId, computed, cost);
    if key !in corrected.cache {
      if wkey in written.cache {
        var k :| k in corrected.cache && wkey == LegacyCacheKey(k.userId, k.prompt, k.maxCompletionTokens);
        LegacyCacheKeyInjectiveWithoutColon(userId, prompt, maxCompletionTokens,
                                            k.userId, k.prompt, k.maxCompletionTokens);
        assert false;
      }
      assert w.state.budget == c.state.budget;
      forall v | v in w.state.cache
        ensures exists k | k in c.state.cache :: v == LegacyCacheKey(k.userId, k.prompt, k.maxCompletionTokens)
      {
        if v == wkey {
          assert key in c.state.cache;
        } else {
          assert v in written.cache;
        }
      }
      forall k | k in c.state.cache
        ensures && LegacyCacheKey(k.userId, k.prompt, k.maxCompletionTokens) in w.state.cache
                && w.state.cache[LegacyCacheKey(k.userId, k.prompt, k.maxCompletionTokens)] == c.state.cache[k]
      {
        if k != key {
          assert k in corrected.cache;
          var v := LegacyCacheKey(k.userId, k.prompt, k.maxCompletionTokens);
          if v == wkey {
            LegacyCacheKeyInjectiveWithoutColon(userId, prompt, maxCompletionTokens,
                                                k.userId, k.prompt, k.maxCompletionTokens);
            assert false;
          }
        }
      }
    }
  }
}

=== FILE: token_chunks.dfy ===
/**
 * Splitting a transcript into consecutive windows of a fixed number of
 * tokens, each decoded back to text (`split_into_token_chunks`).
 */
module Chunking {
  import opened Results
  import opened Tokenizers

  /** Python's `range(0, len(tokens), 0)` raises: a zero step is refused. */
  datatype ChunkError = ZeroStep

  function Min(a: int, b: int): int
  {
    if a <= b then a else b
  }

  /** The number of windows of `size` tokens needed to cover `total` tokens: ceil(total / size). */
  function CeilDiv(total: nat, size: nat): nat
    requires size > 0
  {
    (total + size - 1) / size
  }

  lemma MulMonotone(a: int, b: int, n: int)
    requires a <= b && 0 <= n
    ensures a * n <= b * n
  {
  }

  /** Window `k` exists exactly when it starts before the end of the tokens. */
  lemma CeilDivBounds(total: nat, size: nat, k: nat)
    requires size > 0
    ensures k < CeilDiv(total, size) <==> k * size < total
  {
    var q := CeilDiv(total, size);
    var r := (total + size - 1) % size;
    assert total + size - 1 == q * size + r;
    if k < q {
      MulMonotone(k + 1, q, size);
      assert (k + 1) * size == k * size + size;
    } else {
      MulMonotone(q, k, size);
    }
  }

  /** One window more is needed for `size` more tokens. */
  lemma CeilDivStep(total: nat, size: nat)
    requires 0 < size <= total
    ensures CeilDiv(total, size) == 1 + CeilDiv(total - size, size)
  {
    var q := CeilDiv(total - size, size);
    CeilDivBounds(total - size, size, q);
    CeilDivBounds(total, size, q + 1);
    CeilDivBounds(total, size, q);
    if q > 0 {
      CeilDivBounds(total - size, size, q - 1);
      assert (q - 1) * size + size == q * size;
    }
    assert (q + 1) * size == q * size + size;
  }

  /**
   * ceil(total / size) windows of `size` tokens hold at least `total`
   * tokens, exactly `total` when `size` divides it, and at least one window
   * is needed for any token at all.
   */
  lemma CeilDivCovers(total: nat, size: nat)
    requires size > 0
    ensures CeilDiv(total, size) * size >= total
    ensures CeilDiv(total, size) * size == total <==> total % size == 0
    ensures total > 0 ==> CeilDiv(total, size) >= 1
  {
    var c := CeilDiv(total, size);
    var q, m := total / size, total % size;
    assert total == q * size + m;
    CeilDivBounds(total, size, q);
    if m == 0 {
      assert c <= q;
      if q > 0 {
        CeilDivBounds(total, size, q - 1);
        assert (q - 1) * size == q * size - size;
      }
      assert c == q;
    } else {
      assert q < c;
      CeilDivBounds(total, size, q + 1);
      assert (q + 1) * size == q * size + size;
      assert c == q + 1;
    }
    CeilDivBounds(total, size, 0);
  }

  /** The tokens of a list of windows, read back in order. */
  function Concat(windows: seq<seq<int>>): seq<int>
  {
    if |windows| == 0 then [] else windows[0] + Concat(windows[1..])
  }

  /**
   * The token windows, peeled off the front `size` tokens at a time: they
   * cover the tokens exactly, in order, and all but the last hold `size`.
   */
  function Windows(tokens: seq<int>, size: nat): (w: seq<seq<int>>)
    requires size > 0
    ensures |w| == CeilDiv(|tokens|, size)
    ensures Concat(w) == tokens
    ensures forall i :: 0 <= i < |w| ==> 0 < |w[i]| <= size
    ensures forall i :: 0 <= i < |w| - 1 ==> |w[i]| == size
    decreases |tokens|
  {
    if |tokens| == 0 then
      CeilDivBounds(0, size, 0);
      []
    else if |tokens| <= size then
      CeilDivBounds(|tokens|, size, 0);
      CeilDivBounds(|tokens|, size, 1);
      assert Concat([tokens]) == tokens + Concat([]);
      [tokens]
    else
      CeilDivStep(|tokens|, size);
      var rest := Windows(tokens[size..], size);
      var w := [tokens[..size]] + rest;
      assert w[1..] == rest;
      assert tokens[..size] + tokens[size..] == tokens;
      w
  }

  /** Window `k` of `size` tokens: `tokens[k*size : k*size + size]`, clipped at the end. */
  function Window(tokens: seq<int>, size: nat, k: nat): (w: seq<int>)
    requires k * size < |tokens|
  {
    tokens[k * size .. Min(k * size + size, |tokens|)]
  }

  /** Window `k` of the tokens is window `k - 1` of what follows the first window. */
  lemma WindowShift(tokens: seq<int>, size: nat, k: nat)
    requires 0 < size < |tokens| && 0 < k && k * size < |tokens|
    ensures (k - 1) * size < |tokens| - size
    ensures Window(tokens[size..], size, k - 1) == Window(tokens, size, k)
  {
    var a := (k - 1) * size;
    assert a + size == k * size;
    var rest := tokens[size..];
    assert rest[a .. Min(a + size, |rest|)] == tokens[a + size .. Min(a + 2 * size, |tokens|)];
  }

  /** The peeled windows are exactly the index-addressed windows. */
  lemma {:induction false} WindowsAt(tokens: seq<int>, size: nat, k: nat)
    requires size > 0 && k * size < |tokens|
    ensures k < |Windows(tokens, size)|
    ensures Windows(tokens, size)[k] == Window(tokens, size, k)
    decreases k
  {
    CeilDivBounds(|tokens|, size, k);
    if k > 0 {
      MulMonotone(1, k, size);
      CeilDivStep(|tokens|, size);
      var rest := tokens[size..];
      assert Windows(tokens, size)[k] == Windows(rest, size)[k - 1];
      WindowShift(tokens, size, k);
      WindowsAt(rest, size, k - 1);
    }
  }

  lemma WindowsAtAll(tokens: seq<int>, size: nat)
    requires size > 0
    ensures forall k :: 0 <= k < |Windows(tokens, size)| ==>
              k * size < |tokens| && Windows(tokens, size)[k] == Window(tokens, size, k)
  {
    forall k | 0 <= k < |Windows(tokens, size)|
      ensures k * size < |tokens| && Windows(tokens, size)[k] == Window(tokens, size, k)
    {
      CeilDivBounds(|tokens|, size, k);
      WindowsAt(tokens, size, k);
    }
  }

  /**
   * `split_into_token_chunks(text, n)`: the decoded windows of `n` tokens,
   * in order. Python's `range` makes a zero step an error and a negative
   * step an empty loop.
   */
  function TokenChunks(tok: Tokenizer, text: string, chunkPromptTokens: int): (r: Result<seq<string>, ChunkError>)
    ensures r.Err? <==> chunkPromptTokens == 0
    ensures chunkPromptTokens < 0 ==> r == Ok([])
    ensures chunkPromptTokens > 0 ==> r.Ok? && |r.value| == CeilDiv(|tok.encode(text)|, chunkPromptTokens)
    ensures chunkPromptTokens > 0 && r.Ok? ==>
              forall k :: 0 <= k < |r.value| ==>
                k * chunkPromptTokens < |tok.encode(text)| &&
                r.value[k] == tok.decode(Window(tok.encode(text), chunkPromptTokens, k))
  {
    if chunkPromptTokens == 0 then Err(ZeroStep)
    else if chunkPromptTokens < 0 then Ok([])
    else
      var tokens := tok.encode(text);
      var w := Windows(tokens, chunkPromptTokens);
      WindowsAtAll(tokens, chunkPromptTokens);
      Ok(seq(|w|, k requires 0 <= k < |w| => tok.decode(w[k])))
  }

  /** A count of windows that reaches the end, whose last window starts before it, is ceil(total / size). */
  lemma CeilDivExact(total: nat, size: nat, count: nat)
    requires size > 0 && count * size >= total
    requires count > 0 ==> (count - 1) * size < total
    ensures count == CeilDiv(total, size)
  {
    CeilDivBounds(total, size, count);
    if count > 0 {
      CeilDivBounds(total, size, count - 1);
    } else {
      CeilDivBounds(total, size, 0);
    }
  }

  /** Decoded windows, one per window and in order, are the chunk list. */
  lemma ChunksMatch(tok: Tokenizer, text: string, size: int, chunks: seq<string>)
    requires size > 0 && |chunks| == CeilDiv(|tok.encode(text)|, size)
    requires forall k :: 0 <= k < |chunks| ==>
               k * size < |tok.encode(text)| && chunks[k] == tok.decode(Window(tok.encode(text), size, k))
    ensures TokenChunks(tok, text, size) == Ok(chunks)
  {
    var r := TokenChunks(tok, text, size);
    assert |r.value| == |chunks|;
    assert forall k :: 0 <= k < |chunks| ==> r.value[k] == chunks[k];
    assert r.value == chunks;
  }

  /**
   * The loop of `split_into_token_chunks`: for `i` in `range(0, len(tokens), n)`,
   * append `decode(tokens[i:i+n])`.
   */
  method SplitIntoTokenChunks(tok: Tokenizer, text: string, chunkPromptTokens: int)
    returns (r: Result<seq<string>, ChunkError>)
    ensures r == TokenChunks(tok, text, chunkPromptTokens)
  {
    if chunkPromptTokens == 0 {
      return Err(ZeroStep);
    }
    if chunkPromptTokens < 0 {
      return Ok([]);
    }
    var tokens := tok.encode(text);
    var n := chunkPromptTokens;
    var chunks: seq<string> := [];
    var i := 0;
    while i < |tokens|
      invariant i == |chunks| * n
      invariant forall k :: 0 <= k < |chunks| ==> k * n < |tokens| && chunks[k] == tok.decode(Window(tokens, n, k))
      decreases |tokens| - i
    {
      assert tokens[i .. Min(i + n, |tokens|)] == Window(tokens, n, |chunks|);
      chunks := chunks + [tok.decode(tokens[i .. Min(i + n, |tokens|)])];
      i := i + n;
    }
    CeilDivExact(|tokens|, n, |chunks|);
    ChunksMatch(tok, text, n, chunks);
    r := Ok(chunks);
  }
}

=== FILE: token_economics.dfy ===
/**
 * The two helpers of the minimal token-count project: the USD cost of a
 * request from its token counts and per-million-token rates, and whether a
 * prompt plus its completion budget fits the model's context window.
 * Every other project prices and checks requests with these same formulas.
 */
module TokenEconomics {

  const TokensPerMillion: real := 1000000.0

  /** Default USD rates per million prompt / completion tokens. */
  const DefaultPromptRate: real := 1.5
  const DefaultCompletionRate: real := 2.0

  /** Default context window, in tokens. */
  const DefaultContextLimit: int := 8000

  /** USD for `tokens` tokens at `rate` USD per million tokens. */
  function PerMillion(tokens: int, rate: real): real
  {
    (tokens as real / TokensPerMillion) * rate
  }

  /** At a non-negative rate, more tokens never cost less. */
  lemma PerMillionMonotone(t1: int, t2: int, rate: real)
    ensures t1 <= t2 && 0.0 <= rate ==> PerMillion(t1, rate) <= PerMillion(t2, rate)
    ensures PerMillion(0, rate) == 0.0
  {
    var x1, x2 := t1 as real / TokensPerMillion, t2 as real / TokensPerMillion;
    if t1 <= t2 && 0.0 <= rate {
      MultiplyMonotone(x1, x2, rate);
    }
  }

  lemma MultiplyMonotone(x1: real, x2: real, rate: real)
    requires x1 <= x2 && 0.0 <= rate
    ensures x1 * rate <= x2 * rate
  {
  }

  lemma MultiplyStrict(x1: real, x2: real, rate: real)
    requires x1 < x2 && 0.0 < rate
    ensures x1 * rate < x2 * rate
  {
  }

  /**
   * Cost in USD of `promptTokens` prompt tokens and `completionTokens`
   * completion tokens, exact (before rounding to six decimal places).
   */
  function EstimateCost(promptTokens: int, completionTokens: int,
                        promptRate: real := DefaultPromptRate,
                        completionRate: real := DefaultCompletionRate): (cost: real)
    ensures 0 <= promptTokens && 0 <= completionTokens && 0.0 <= promptRate && 0.0 <= completionRate
            ==> 0.0 <= cost
  {
    PerMillionMonotone(0, promptTokens, promptRate);
    PerMillionMonotone(0, completionTokens, completionRate);
    PerMillion(promptTokens, promptRate) + PerMillion(completionTokens, completionRate)
  }

  /** Whether a prompt and its reserved completion fit in `contextLimit` tokens. */
  predicate FitsContext(promptTokens: int, maxCompletionTokens: int,
                        contextLimit: int := DefaultContextLimit): (fits: bool)
    ensures fits <==> maxCompletionTokens <= contextLimit - promptTokens
  {
    promptTokens + maxCompletionTokens <= contextLimit
  }

  /** No tokens cost nothing, whatever the rates. */
  lemma EstimateCostZero(promptRate: real, completionRate: real)
    ensures EstimateCost(0, 0, promptRate, completionRate) == 0.0
  {
  }

  /** With non-negative rates, more tokens of either kind never cost less. */
  lemma EstimateCostMonotone(p1: int, c1: int, p2: int, c2: int, promptRate: real, completionRate: real)
    requires p1 <= p2 && c1 <= c2
    requires 0.0 <= promptRate && 0.0 <= completionRate
    ensures EstimateCost(p1, c1, promptRate, completionRate) <= EstimateCost(p2, c2, promptRate, completionRate)
  {
    PerMillionMonotone(p1, p2, promptRate);
    PerMillionMonotone(c1, c2, completionRate);
  }

  /** With a non-negative completion rate, a larger completion never costs less, whatever the prompt. */
  lemma EstimateCostMonotoneInCompletion(p: int, c1: int, c2: int, promptRate: real, completionRate: real)
    requires c1 <= c2 && 0.0 <= completionRate
    ensures EstimateCost(p, c1, promptRate, completionRate) <= EstimateCost(p, c2, promptRate, completionRate)
  {
    PerMillionMonotone(c1, c2, completionRate);
  }

  /** With a positive prompt rate, more prompt tokens cost strictly more. */
  lemma EstimateCostStrictInPrompt(p1: int, p2: int, c: int, promptRate: real, completionRate: real)
    requires p1 < p2 && 0.0 < promptRate
    ensures EstimateCost(p1, c, promptRate, completionRate) < EstimateCost(p2, c, promptRate, completionRate)
  {
    var x1, x2 := p1 as real / TokensPerMillion, p2 as real / TokensPerMillion;
    MultiplyStrict(x1, x2, promptRate);
  }

  /** Cost is linear: pricing two requests together costs what pricing them apart does. */
  lemma EstimateCostAdditive(p1: int, c1: int, p2: int, c2: int, promptRate: real, completionRate: real)
    ensures EstimateCost(p1 + p2, c1 + c2, promptRate, completionRate)
         == EstimateCost(p1, c1, promptRate, completionRate) + EstimateCost(p2, c2, promptRate, completionRate)
  {
    assert PerMillion(p1 + p2, promptRate) == PerMillion(p1, promptRate) + PerMillion(p2, promptRate);
    assert PerMillion(c1 + c2, completionRate) == PerMillion(c1, completionRate) + PerMillion(c2, completionRate);
  }

  /** A million times the cost is the rate-weighted sum of the two token counts. */
  lemma EstimateCostScaled(promptTokens: int, completionTokens: int, promptRate: real, completionRate: real)
    ensures EstimateCost(promptTokens, completionTokens, promptRate, completionRate) * TokensPerMillion
         == promptTokens as real * promptRate + completionTokens as real * completionRate
  {
    PerMillionScaled(promptTokens, promptRate);
    PerMillionScaled(completionTokens, completionRate);
  }

  lemma PerMillionScaled(tokens: int, rate: real)
    ensures PerMillion(tokens, rate) * TokensPerMillion == tokens as real * rate
  {
    var x := tokens as real / TokensPerMillion;
    assert x * TokensPerMillion == tokens as real;
    assert (x * rate) * TokensPerMillion == (x * TokensPerMillion) * rate;
  }

  /** The default rates: a million tokens of each kind cost 1.5 + 2.0 USD, and 2000 prompt tokens cost more than 1000. */
  lemma DefaultRateExamples()
    ensures EstimateCost(1000000, 1000000) == 3.5
    ensures EstimateCost(1000, 0) < EstimateCost(2000, 0)
  {
    EstimateCostStrictInPrompt(1000, 2000, 0, DefaultPromptRate, DefaultCompletionRate);
  }

  /** The limit is inclusive, and shrinking either count keeps a fitting request fitting. */
  lemma FitsContextBoundary(promptTokens: int, maxCompletionTokens: int, contextLimit: int)
    ensures FitsContext(contextLimit - maxCompletionTokens, maxCompletionTokens, contextLimit)
    ensures !FitsContext(contextLimit - maxCompletionTokens + 1, maxCompletionTokens, contextLimit)
    ensures FitsContext(promptTokens, maxCompletionTokens, contextLimit)
            ==> forall p | p <= promptTokens :: FitsContext(p, maxCompletionTokens, contextLimit)
    ensures FitsContext(promptTokens, maxCompletionTokens, contextLimit)
            ==> forall c | c <= maxCompletionTokens :: FitsContext(promptTokens, c, contextLimit)
  {
  }

  /** The default limit of 8000 tokens: (1000, 1000) fits, (8000, 1) does not. */
  lemma DefaultLimitExamples()
    ensures FitsContext(1000, 1000)
    ensures !FitsContext(8000, 1)
  {
  }
}

=== FILE: tokenizers.dfy ===
/**
 * The tokenizer every project wraps (tiktoken's `cl100k_base` encoding),
 * taken as an abstract capability. Nothing is assumed about it: neither that
 * `decode(encode(t)) == t` nor that token counts add up over concatenated
 * text, since byte-pair encoding guarantees neither.
 */
module Tokenizers {

  /** `encode` maps text to token ids; `decode` maps token ids back to text. */
  datatype Tokenizer = Tokenizer(encode: string -> seq<int>, decode: seq<int> -> string)

  /**
   * `count_tokens`: the number of tokens `text` encodes to, zero exactly
   * when it encodes to nothing.
   */
  function Count(tok: Tokenizer, text: string): (n: nat)
    ensures n == 0 <==> tok.encode(text) == []
  {
    |tok.encode(text)|
  }
}

=== FILE: transcript_cost.dfy ===
/**
 * Cost planning for summarizing a long meeting transcript chunk by chunk
 * (`estimate_summarization_cost`): every chunk is sent with the fixed
 * instructions and a full completion budget, inside a 4000-token window
 * shrunk by a 0.8 safety margin.
 */
module TranscriptCost {
  import opened Results
  import opened Tokenizers
  import opened TokenEconomics
  import opened Chunking

  const ModelContextLimit: int := 4000
  const MaxCompletionTokens: int := 512
  const PromptRatePerMillion: real := 1.0
  const CompletionRatePerMillion: real := 1.5

  /** Tokens added to the instructions' own count for per-chunk framing. */
  const FramingTokens: int := 50

  const DefaultInstructions: string := "You are a meeting summarization assistant."

  /** The configured limits leave no room for any transcript token. */
  datatype PlanError = WindowTooSmall

  /** The statistics the planner reports for a transcript. */
  datatype SummarizationStats = SummarizationStats(
    numChunks: nat,
    chunkSizeTokens: int,
    totalPromptTokens: int,
    totalCompletionTokens: int,
    estimatedTotalCostUsd: real)

  /**
   * `int(x * 0.8)`: four fifths of `x`, truncated toward zero (Python's
   * `int` of a float). The result is the integer nearest 4x/5 on the side
   * of zero.
   */
  function ApplySafetyMargin(x: int): (r: int)
    ensures 0 <= x ==> 5 * r <= 4 * x < 5 * r + 5
    ensures x < 0 ==> 5 * r - 5 < 4 * x <= 5 * r && r <= 0
  {
    if x >= 0 then (4 * x) / 5 else -((4 * -x) / 5)
  }

  /** Tokens every chunk request spends on the instructions and framing. */
  function OverheadTokens(tok: Tokenizer, instructions: string): nat
  {
    Count(tok, instructions) + FramingTokens
  }

  /** Transcript tokens a chunk may hold once overhead and completion are reserved. */
  function AvailableTokens(overhead: int): (available: int)
    ensures available > 0 <==> overhead <= 3486
  {
    ApplySafetyMargin(ModelContextLimit - overhead - MaxCompletionTokens)
  }

  /**
   * `estimate_summarization_cost`: refuses when the window is empty;
   * otherwise one chunk per `chunkSizeTokens` transcript tokens (rounded
   * up), each charged a full window plus overhead and a full completion.
   */
  function EstimateSummarizationCost(tok: Tokenizer, transcript: string,
                                     instructions: string := DefaultInstructions)
    : (r: Result<SummarizationStats, PlanError>)
    ensures r.Err? <==> Count(tok, instructions) >= 3437
    ensures r.Ok? ==> var s := r.value;
      && 0 < s.chunkSizeTokens
      && 5 * s.chunkSizeTokens <= 4 * (ModelContextLimit - OverheadTokens(tok, instructions) - MaxCompletionTokens)
            < 5 * s.chunkSizeTokens + 5
      && s.numChunks == CeilDiv(|tok.encode(transcript)|, s.chunkSizeTokens)
      && s.totalPromptTokens == (s.chunkSizeTokens + OverheadTokens(tok, instructions)) * s.numChunks
      && s.totalCompletionTokens == MaxCompletionTokens * s.numChunks
      && s.estimatedTotalCostUsd
           == EstimateCost(s.totalPromptTokens, s.totalCompletionTokens, PromptRatePerMillion, CompletionRatePerMillion)
  {
    var overhead := OverheadTokens(tok, instructions);
    var available := AvailableTokens(overhead);
    if available <= 0 then Err(WindowTooSmall)
    else
      var chunks := TokenChunks(tok, transcript, available);
      var numChunks := |chunks.value|;
      var totalPromptTokens := (available + overhead) * numChunks;
      var totalCompletionTokens := MaxCompletionTokens * numChunks;
      Ok(SummarizationStats(
        numChunks, available, totalPromptTokens, totalCompletionTokens,
        EstimateCost(totalPromptTokens, totalCompletionTokens, PromptRatePerMillion, CompletionRatePerMillion)))
  }

  /**
   * Each chunk request (a full window, the overhead and the completion
   * budget) fits the model's context window.
   */
  lemma ChunkRequestFitsContext(tok: Tokenizer, transcript: string, instructions: string)
    requires Count(tok, instructions) < 3437
    ensures EstimateSummarizationCost(tok, transcript, instructions).Ok?
    ensures var s := EstimateSummarizationCost(tok, transcript, instructions).value;
      FitsContext(s.chunkSizeTokens + OverheadTokens(tok, instructions), MaxCompletionTokens, ModelContextLimit)
  {
  }

  /**
   * The charged prompt tokens are a worst case: they cover every transcript
   * token plus the overhead of every chunk, with equality exactly when the
   * last chunk is full. The cost is never negative, and a transcript that
   * encodes to at least one token needs at least one chunk.
   */
  lemma WorstCaseCoversTranscript(tok: Tokenizer, transcript: string, instructions: string)
    requires Count(tok, instructions) < 3437
    ensures EstimateSummarizationCost(tok, transcript, instructions).Ok?
    ensures var s := EstimateSummarizationCost(tok, transcript, instructions).value;
      var overhead := OverheadTokens(tok, instructions);
      var total := |tok.encode(transcript)|;
      && s.totalPromptTokens >= total + overhead * s.numChunks
      && (s.totalPromptTokens == total + overhead * s.numChunks <==> total % s.chunkSizeTokens == 0)
      && 0.0 <= s.estimatedTotalCostUsd
      && (total > 0 ==> s.numChunks >= 1)
  {
    var s := EstimateSummarizationCost(tok, transcript, instructions).value;
    WorstCaseArithmetic(|tok.encode(transcript)|, s.chunkSizeTokens, OverheadTokens(tok, instructions),
                        s.numChunks, s.totalPromptTokens);
    assert 0 <= s.totalCompletionTokens by {
      MulMonotone(0, MaxCompletionTokens, s.numChunks);
    }
  }

  /** The arithmetic behind the worst-case charge, for any window size and overhead. */
  lemma WorstCaseArithmetic(total: nat, size: nat, overhead: nat, chunks: nat, charged: int)
    requires size > 0 && chunks == CeilDiv(total, size) && charged == (size + overhead) * chunks
    ensures charged >= total + overhead * chunks
    ensures charged == total + overhead * chunks <==> total % size == 0
    ensures total > 0 ==> chunks >= 1
    ensures 0 <= charged
  {
    CeilDivCovers(total, size);
    MulMonotone(0, size + overhead, chunks);
    assert charged == chunks * size + overhead * chunks;
  }

  /**
   * The Transcript_CE test (`test_main.py`), for any transcript: with
   * instructions that take no more tokens than characters (true of
   * byte-pair encodings of ASCII text), any transcript that encodes to at
   * least one token is planned, in at least one chunk, at a non-negative
   * cost.
   */
  lemma DefaultInstructionsPlan(tok: Tokenizer, transcript: string)
    requires Count(tok, DefaultInstructions) <= |DefaultInstructions|
    requires |tok.encode(transcript)| > 0
    ensures var r := EstimateSummarizationCost(tok, transcript);
      r.Ok? && r.value.numChunks >= 1 && r.value.estimatedTotalCostUsd >= 0.0
  {
    WorstCaseCoversTranscript(tok, transcript, DefaultInstructions);
  }
}
